=== FILE: README.md ===
# pymcwrapper, modelled in Dafny

pymcwrapper runs a game server as a child process. It sits between that child
and an operator's console. Console lines, timed command-sequence jobs and file
change notices all become events on one queue. A single dispatcher thread drains
the queue in order. The handlers write to the child's standard input, start,
stop or restart the child, and finally tear everything down.

This project models the sequential rules under that thread and process plumbing:

- `Text`: Python's `str.strip`, `str.rstrip`, `str.split(maxsplit=1)` and
  `'\n'.join`. Whitespace is exactly the set of characters for which
  `str.isspace` holds.
- `Events`: the queued event kinds. `Unregistered` stands for an event object
  that has no handler.
- `Effects`: one ordered trace of everything observable. This covers text
  written to the child, the child's lifecycle, operator messages, thread
  stop/join calls, and procedure invocations. `Writes` projects the trace onto
  the child's stdin log.
- `Supervisor`: the child's `Stopped`/`Running` state and the effects of
  `pipe`, `send`, `start_server`, `stop_server` and `restart_server`. Its
  partner is a lifecycle automaton (`Advance`, `Replay`) that every produced
  trace must satisfy.
- `Jobs`: `CommandSequenceJob`, covering construction, one tick of its loop,
  `stop`, and any number of ticks.
- `Console`: the input loop (`_loop_input`) and the routing of an input line
  (`_handle_input_event` with `_cmd_map`).
- `ServerWrapper`: the wrapper state, the handlers, `load`/`load_file`/`load_dir`,
  `run` as far as its argument split, the exit handler's teardown, the
  dispatcher loop, and `_make_job`.

The dispatcher loop is `Drain`. It is a fold over the queue, parameterised by a
turn function. `Dispatch` instantiates it with the wrapper's own turn. The loop
lemmas are proved once for any turn with the stated property and then applied
to the real one.

Whether the child runs is an explicit status. pymcwrapper infers it from the
liveness of the output-relay thread (`_is_server_running`). That thread ends
when the child closes its output, so a child exiting on its own is the separate
`Supervisor.ChildExit` transition. `ServerWrapper.ChildGone` applies it to the
wrapper between two turns of the loop.

## Model

| member | source | states |
|---|---|---|
| Text.RStrip | pymcwrapper/mc_server_wrapper.py:142 | The result is a prefix of the line. Everything removed is whitespace, and the result does not end in whitespace. The result is empty exactly when the line is all whitespace. |
| Text.RStripUnique | pymcwrapper/mc_server_wrapper.py:142 | Those three properties determine `rstrip`'s result: any prefix with them is the result. |
| Text.LStrip | pymcwrapper/mc_server_wrapper.py:143 | The result is a suffix and does not start with whitespace. Only whitespace is removed. The result is empty exactly when the text is all whitespace. |
| Text.LStripUnique | pymcwrapper/mc_server_wrapper.py:143 | Any suffix with those properties is the result. |
| Text.Strip | pymcwrapper/mc_server_wrapper.py:116 | A stripped line neither starts nor ends with whitespace. It is empty exactly when the line was blank. |
| Text.StripOf | pymcwrapper/mc_server_wrapper.py:116 | Take whitespace, then a core that neither starts nor ends with whitespace, then whitespace. Stripping that gives back the core. |
| Text.RStripStripped | pymcwrapper/mc_server_wrapper.py:142 | `rstrip` leaves an already stripped console line unchanged. |
| Text.TakeWordUnique | pymcwrapper/mc_server_wrapper.py:143 | A whitespace-free prefix followed by whitespace or the end is the first word. |
| Text.SplitFirst | pymcwrapper/mc_server_wrapper.py:143 | There are at most two tokens, and none exactly when the line is blank. The first token is non-empty and free of whitespace. A second token is non-empty and starts with a non-whitespace character. |
| Text.SplitFirstOne | pymcwrapper/mc_server_wrapper.py:143 | One word, however padded, splits into that word alone. |
| Text.SplitFirstTwo | pymcwrapper/mc_server_wrapper.py:143 | A word, a whitespace gap and a rest splits into the word and the rest. The rest keeps its inner and trailing whitespace. |
| Text.JoinLinesTerminated | pymcwrapper/job.py:46 | For at least one command, joining with newlines and appending a newline gives every command its own terminating newline. |
| Text.ParseTerminated | pymcwrapper/job.py:46 | Reading newline-terminated lines back gives the original commands, for commands free of newlines. |
| Effects.Writes | pymcwrapper/mc_server_wrapper.py:132-139 | The stdin log holds no more entries than the trace has effects, and a trace with no write leaves it empty. Which texts it holds, in trace order, comes from `WritesOne` and `WritesAppend`. |
| Effects.Lifecycle | pymcwrapper/mc_server_wrapper.py:235-258 | The child's lifecycle as recorded holds only spawns, reaps and exits, and a trace without any of them has an empty lifecycle. That they appear in trace order comes from `LifecycleOne` and `LifecycleAppend`. |
| Effects.LifecycleAppend | pymcwrapper/mc_server_wrapper.py:235-258 | The lifecycle of a trace followed by more effects is the first lifecycle followed by the second. |
| Effects.WritesAppend | pymcwrapper/mc_server_wrapper.py:132-139 | The stdin log of a trace followed by more effects is the first log followed by the second. The log is append-only. |
| Supervisor.ReplayAppend | pymcwrapper/mc_server_wrapper.py:127-130 | The lifecycle automaton over a concatenated trace runs the second part from where the first part left it. |
| Supervisor.ReplayInert | pymcwrapper/mc_server_wrapper.py:127-130 | Messages and thread bookkeeping are accepted in either status. They change neither the status nor the stdin log. |
| Supervisor.ThenLegal | pymcwrapper/mc_server_wrapper.py:244-246 | Two accepted transitions, one after the other, are accepted together. |
| Supervisor.Pipe | pymcwrapper/mc_server_wrapper.py:132-139 | The pipe produces exactly one effect. With a child running, that effect is the write of exactly the given text. With no child, it is the "not running" report and nothing is written. The status and the child's lifecycle are unchanged. |
| Supervisor.Send | pymcwrapper/mc_server_wrapper.py:272-273 | Sending produces exactly one effect. With a child running, it writes the text followed by one newline. With no child, it is the "not running" report and nothing is written. The child's lifecycle is untouched. |
| Supervisor.SendStop | pymcwrapper/mc_server_wrapper.py:251 | Sending `stop` to a running child writes exactly `"stop\n"`, the text `stop_server` writes. |
| Supervisor.Start | pymcwrapper/mc_server_wrapper.py:235-242 | Starting produces exactly one effect, and the child is running afterwards. With none running, that effect is the spawn of one child. With one running, it is the "already running" report. Nothing is written. |
| Supervisor.Stop | pymcwrapper/mc_server_wrapper.py:248-258 | With a child running, `stop` plus a newline is written and the child is then reaped. With no child, only "not running" is reported. Either way no child runs afterwards. |
| Supervisor.Restart | pymcwrapper/mc_server_wrapper.py:244-258 | A child runs afterwards. From a running child the effects are exactly: write `stop`, reap, spawn. With no child they are exactly: report "not running", then spawn. The lifecycle is one reap (only if a child ran) followed by exactly one spawn. |
| Supervisor.StopLifecycle | pymcwrapper/mc_server_wrapper.py:248-258 | Stopping reaps the child exactly when one runs, and does nothing else to the lifecycle. |
| Supervisor.ChildExit | pymcwrapper/mc_server_wrapper.py:123-130 | When the child's output ends, the wrapper sees no child running. Exactly one effect, the exit, is recorded if a child ran, and none otherwise. Nothing is written. |
| Supervisor.StartTwice | pymcwrapper/mc_server_wrapper.py:235-242 | A second start only reports "already running". Two starts in a row spawn one child from no child, and none from a running one. |
| Supervisor.WriteNeedsChild | pymcwrapper/mc_server_wrapper.py:132-139 | In any accepted trace, every write comes after a spawn, unless the trace began with a child running. |
| Jobs.GroupText | pymcwrapper/job.py:46 | A group's text is non-empty and ends in a newline. |
| Jobs.GroupTextLines | pymcwrapper/job.py:46 | Splitting a group's text back into lines gives the group's commands. |
| Jobs.Create | pymcwrapper/job.py:44-46 | Construction fails exactly when there are no groups. Otherwise there is one text per group, text `i` is built from group `i`, and the title is kept. The cursor is in range and congruent to the start index modulo the group count, including for negative start indices. |
| Jobs.CreateIndex | pymcwrapper/job.py:45 | A start index in range is kept. A negative one down to minus the group count counts back from the last group. |
| Jobs.Step | pymcwrapper/job.py:53-55 | A stopped job ends its loop. A running one emits its title with the current group's text and advances the cursor cyclically. It stays valid, and its title and texts never change. |
| Jobs.Stop | pymcwrapper/job.py:61-62 | Stopping sets the flag and changes nothing else. |
| Jobs.Iterate | pymcwrapper/job.py:52-56 | Up to `k` turns of the job's loop emit at most `k` events. Each is a job event under the job's title. The job stays valid, with its title, texts and stop flag unchanged. |
| Jobs.Cyclic | pymcwrapper/job.py:52-56 | From index `i`, a running job's `m`-th emission carries text `(i + m) mod n` under its own title. After `k` ticks the cursor is at `(i + k) mod n`. |
| Jobs.FullCycle | pymcwrapper/job.py:52-56 | From the first group, `n` ticks emit every group's text once, in order, and return to the first group. |
| Jobs.StoppedIsSilent | pymcwrapper/job.py:53 | A stopped job emits nothing, however many iterations are allowed. |
| Console.Enqueue | pymcwrapper/mc_server_wrapper.py:116-121 | Over stripped lines, an exit token queues `Exit` and ends the loop. Every earlier line is queued as `Input` of exactly that text and is not an exit token. |
| Console.StripAll | pymcwrapper/mc_server_wrapper.py:116 | Each line typed is stripped, one for one, in order. |
| Console.Read | pymcwrapper/mc_server_wrapper.py:114-121 | The same facts, stated over the lines as typed: each is stripped first. |
| Console.ReadExits | pymcwrapper/mc_server_wrapper.py:114-121 | The session ends on `Exit` exactly when some typed line strips to `exit` or `x`. |
| Console.EnqueueExits | pymcwrapper/mc_server_wrapper.py:117-119 | Over stripped lines, the loop ends exactly when some line is an exit token. |
| Console.SessionShape | pymcwrapper/mc_server_wrapper.py:116-121 | Only the last event a session queues can be `Exit`. It is `Exit` exactly when the session ended on an exit token. |
| Console.EnqueueShape | pymcwrapper/mc_server_wrapper.py:116-121 | The same facts over already stripped lines. |
| Console.CommandNames | pymcwrapper/mc_server_wrapper.py:44-51 | Two different command names share an action exactly when they are `send` and `>`. |
| Console.Route | pymcwrapper/mc_server_wrapper.py:141-153 | A line is blank exactly when it is all whitespace. A non-blank line whose first word names no command is forwarded as the right-stripped line, and every forwarded line is of that kind. An invoked command is the table entry of the line's first word, which is a command name. A command's argument is empty or starts with a non-whitespace character. |
| Console.RouteInvoke | pymcwrapper/mc_server_wrapper.py:141-151 | A command name, whitespace and an argument, however padded, invoke that command with exactly that argument. |
| Console.RouteNamed | pymcwrapper/mc_server_wrapper.py:141-151 | An unpadded line made of a command name, a gap and an argument invokes that command with that argument. |
| Console.RouteBare | pymcwrapper/mc_server_wrapper.py:141-151 | A command name alone, however padded, invokes that command with the empty argument. |
| Console.RouteQueued | pymcwrapper/mc_server_wrapper.py:141-153 | A line the console queued is already stripped. When its first word is no command, it is forwarded exactly as stripped: the handler's `rstrip` removes nothing more. |
| Console.StopIsNoCommand | pymcwrapper/mc_server_wrapper.py:44-51 | `stop` is not among the console's command names. |
| ServerWrapper.LoadFile | pymcwrapper/mc_server_wrapper.py:275-278 | Loading a file pipes its text unchanged to a running child, and the child's lifecycle is untouched. A missing path or a directory raises, with nothing done. |
| ServerWrapper.LoadDir | pymcwrapper/mc_server_wrapper.py:280-284 | Loading a directory keeps the status, jobs and observers, leaves the child's lifecycle untouched, and only appends to a consistent trace. |
| ServerWrapper.LoadDirRaises | pymcwrapper/mc_server_wrapper.py:280-284 | A directory load raises exactly when some entry is not a file. |
| ServerWrapper.LoadDirWrites | pymcwrapper/mc_server_wrapper.py:280-284 | With a child running, a directory load sends the texts of the files before the first non-file entry, in listing order. |
| ServerWrapper.Load | pymcwrapper/mc_server_wrapper.py:286-292 | A file path is loaded as a file, and a directory path is loaded entry by entry as `load_dir` does. A path that does not exist is reported as invalid and nothing else happens. No branch touches the child's lifecycle. |
| ServerWrapper.RunProcedure | pymcwrapper/mc_server_wrapper.py:294-297 | `run` raises exactly when its argument has no word. Otherwise it writes nothing itself and keeps the status. |
| ServerWrapper.Execute | pymcwrapper/mc_server_wrapper.py:206-222 | Each command runs its own action with the argument: `start` starts the child, `restart` restarts it, `echo` shows the argument, `send` and `>` send it as one command, `load` loads the path, and `run` runs the procedure. `start` and `restart` leave a child running. No command ends the loop. |
| ServerWrapper.HandleInput | pymcwrapper/mc_server_wrapper.py:141-153 | A blank line changes nothing. No line ends the loop. Jobs and observers are untouched. |
| ServerWrapper.ForwardRaw | pymcwrapper/mc_server_wrapper.py:141-153 | A non-blank line whose first word is not a command is sent whole, right-stripped, with one newline. A running child receives exactly that text; with no child nothing is written. |
| ServerWrapper.ForwardWord | pymcwrapper/mc_server_wrapper.py:148-153 | A single word that names no command, typed alone, is sent to the child as it is. |
| ServerWrapper.HandleInvoke | pymcwrapper/mc_server_wrapper.py:148-151 | A line routed to a command runs exactly that command's action with the argument. |
| ServerWrapper.SendsArgument | pymcwrapper/mc_server_wrapper.py:272-273 | `send x` and `> x` hand `x` plus one newline to the child. |
| ServerWrapper.SendAlias | pymcwrapper/mc_server_wrapper.py:48-49 | `send x` and `> x` have the same effect. |
| ServerWrapper.StopAndJoin | pymcwrapper/mc_server_wrapper.py:176-185 | Each component is stopped and then joined, in list order. Nothing touches the child. |
| ServerWrapper.Teardown | pymcwrapper/mc_server_wrapper.py:162-188 | The exit handler's effects are accepted from the current status and leave no child running. |
| ServerWrapper.TeardownHead | pymcwrapper/mc_server_wrapper.py:165-171 | The teardown opens with the console reader's join, then the child's stop if one runs. The job and observer stop/join pairs follow. |
| ServerWrapper.TeardownOrder | pymcwrapper/mc_server_wrapper.py:162-188 | Position by position: the input join; then each job stopped then joined, in list order; then each observer likewise. |
| ServerWrapper.TeardownWrites | pymcwrapper/mc_server_wrapper.py:169-171 | The only text the teardown sends is the stop command, and only to a running child. |
| ServerWrapper.Shutdown | pymcwrapper/mc_server_wrapper.py:162-188 | The exit handler appends exactly the teardown's effects to the trace, in the teardown's order. Afterwards no child runs, every job is stopped and every observer is stopped. |
| ServerWrapper.ShutdownWrites | pymcwrapper/mc_server_wrapper.py:169-171 | The exit handler writes `"stop\n"` to a running child and nothing to a stopped one. |
| ServerWrapper.ChildGone | pymcwrapper/mc_server_wrapper.py:127-130 | When the child ends by itself, the wrapper sees no child from then on. Nothing is written, and jobs and observers are untouched. |
| ServerWrapper.StopTypedThenExit | pymcwrapper/mc_server_wrapper.py:148-171 | Typing `stop` forwards it to a running child. If the child then ends by itself, the exit handler writes nothing more, so the child receives `stop` once. |
| ServerWrapper.StopForwarded | pymcwrapper/mc_server_wrapper.py:148-153 | Typing `stop` with a child running writes `"stop\n"` to it and nothing else. |
| ServerWrapper.ShutdownSilencesJobs | pymcwrapper/mc_server_wrapper.py:176-178 | After shutdown, no job emits again. |
| ServerWrapper.Handle | pymcwrapper/mc_server_wrapper.py:38-42 | An event has a handler exactly when it is of a registered kind. `Exit` reaches the exit handler, `Input` reaches the input handler, a job event pipes its text, and a file change loads that file. A handler asks the loop to stop exactly for `Exit`. No handler other than the exit handler touches jobs or observers. |
| ServerWrapper.Deliver | pymcwrapper/mc_server_wrapper.py:92-112 | One turn of the loop ends the loop exactly on `Exit`. An unregistered event only adds the warning. A handler that raises is followed by the failure report. A handler that returns without stopping leaves its own result. The turn only appends to a consistent trace. |
| ServerWrapper.DeliverExit | pymcwrapper/mc_server_wrapper.py:101-112 | Taking `Exit` appends the teardown's effects and then the "Wrapper has stopped." notice. No child runs afterwards. |
| ServerWrapper.Drain | pymcwrapper/mc_server_wrapper.py:90-102 | The loop takes no more events than are queued. If it does not end, it takes all of them. |
| ServerWrapper.Dispatch | pymcwrapper/mc_server_wrapper.py:90-112 | The same bounds for the wrapper's own loop, which keeps its trace consistent. |
| ServerWrapper.DrainOne | pymcwrapper/mc_server_wrapper.py:91-102 | One queued event is one turn of the handler, and the loop ends exactly when that turn asks it to. |
| ServerWrapper.DrainStops | pymcwrapper/mc_server_wrapper.py:100-102 | A turn that ends the loop is the last: what it left is the result, and nothing behind it is handled. |
| ServerWrapper.DrainAppend | pymcwrapper/mc_server_wrapper.py:90-102 | Events are handled strictly in queue order. Taking `a + b`, where `a` holds no `Exit`, is taking all of `a` and then taking `b` from where `a` left the wrapper. |
| ServerWrapper.DispatchAppend | pymcwrapper/mc_server_wrapper.py:90-102 | The same order for the wrapper's own loop. |
| ServerWrapper.DrainExtends | pymcwrapper/mc_server_wrapper.py:90-112 | If every turn only appends consistently, the whole loop does. |
| ServerWrapper.DrainExits | pymcwrapper/mc_server_wrapper.py:100-102 | If turns end the loop exactly on `Exit`, the loop ends exactly when the queue holds one. |
| ServerWrapper.DrainFirstExit | pymcwrapper/mc_server_wrapper.py:100-102 | Such a loop ends right after the first `Exit`, so nothing queued behind it is handled. |
| ServerWrapper.DrainJobEvents | pymcwrapper/mc_server_wrapper.py:155-157 | If turns pipe job texts to a running child, a queue of job events is drained completely and their texts are sent in queue order. |
| ServerWrapper.DrainWhole | pymcwrapper/mc_server_wrapper.py:90-102 | A queue with `Exit` nowhere before its last event is taken whole. The loop ends exactly when that last event is `Exit`. |
| ServerWrapper.DispatchExits | pymcwrapper/mc_server_wrapper.py:100-102 | The wrapper's loop ends exactly when an `Exit` is queued. |
| ServerWrapper.DispatchFirstExit | pymcwrapper/mc_server_wrapper.py:100-102 | The wrapper's loop ends right after the first `Exit`, so nothing queued behind it is handled. |
| ServerWrapper.ConsoleThenDispatch | pymcwrapper/mc_server_wrapper.py:114-121 | The loop handles every event the console queued. It ends on the console's `Exit` exactly when the session ended with an exit token. |
| ServerWrapper.DeliverJob | pymcwrapper/mc_server_wrapper.py:155-157 | A job event pipes its text and never ends the loop. |
| ServerWrapper.DispatchJobEvents | pymcwrapper/mc_server_wrapper.py:155-157 | With a child running, queued job events reach the child verbatim and in queue order, and the loop goes on. |
| ServerWrapper.JobFeedsChild | pymcwrapper/job.py:52-56 | A running job's first `k` ticks, dispatched to a running child, deliver the group texts from the job's index onwards, wrapping around. |
| ServerWrapper.CarriedCycle | pymcwrapper/job.py:54 | A running job's ticks are all job events. They carry its group texts cyclically from its index. |
| ServerWrapper.MakeJob | pymcwrapper/mc_server_wrapper.py:65-76 | An absent `job_type` or an unknown job type fails, naming the problem. A job is built exactly when the type is `command_sequence`, title, delay and groups are present, and there is at least one group. The job has the title and one text per group. Its start index defaults to 0 when none is given. |

## Left out

- Processes and threads are not modelled: `Popen`, the child's streams, the
  output-relay thread, `threading.Lock`, blocking `Queue.get`, and thread
  start/join mechanics. The queue is a sequence and the lock is sequential
  appends. A thread's stop and join are effects in the trace.
- Real time and the job delay are not modelled. A tick is one loop iteration,
  and the delay's value is not modelled (only its presence in a job entry).
- Informational and colour printing are not modelled: `_print*`, `FMT_*`, and
  messages such as "Starting server...". Warnings, errors, echo output and
  "Wrapper has stopped." are kept as `Told` notices.
- The traceback text printed for a failing handler is left out. The failure is
  one `HandlerFailed` notice.
- The filesystem is a map given as a parameter. A directory's listing holds the
  entries' full paths, so `os.path.join` is assumed. `os.listdir`'s order is the
  listing order given.
- `run` stops after its argument split. The `Invoked` effect stands for
  importing the named module, parsing the parameters with YAML and sending the
  procedure's commands. That code is foreign and dynamically loaded.
- The watchdog-based observer internals, `_make_observer`, `observer.py`
  beyond its event payload, `run.py`, and the configuration defaults are not
  part of this model. An observer is its path, recursive flag and stopped flag.
- The wrapper's `start()` (starting the child and then every thread) is left
  out, because it is thread start-up only.
- `Thread.isAlive`, used by `_is_server_running`, exists only up to Python 3.8.
  The model assumes the liveness query works.
- ServerWrapper.MakeJob: key values are assumed well typed. A present but
  `None` index, or non-string commands, would raise in Python and are not
  modelled.
- ServerWrapper.RunProcedure: `yaml.load` failing on the parameter text, a
  missing module and a module without `run` are not distinguished. All of them
  are outside the argument split that is modelled.
- Text.SplitFirst: does not state the tokens' values: that the first token is
  the line's first word, and that the second is the text after the whitespace
  following it. `SplitFirstOne` and `SplitFirstTwo` characterise both tokens.
- ServerWrapper.Dispatch: the loop has no step for the child ending by itself,
  since that happens on another thread at any moment. `ChildGone` is that step,
  and `StopTypedThenExit` applies it between two turns; the loop over a queue
  alone assumes the child stops only through `stop_server`.
- `load_file` opens files in text mode. `File.content` is the text `fp.read()`
  returns after decoding with the locale's encoding and turning `\r\n` into
  `\n`, not the file's bytes. A file that does not decode raises in Python;
  the model has no such file.
- Three behaviours of the code worth knowing:
  - `start_server` while running, and `stop_server` or a write with no child,
    only print an error; they raise nothing.
  - A missing path in `load_file`, which is reached from a file-change event,
    raises. The dispatcher then reports the failure; there is no separate path
    error message.
  - A directory load that meets a sub-directory raises at that entry. The files
    before it have already been sent, and the entries after it are skipped.

=== FILE: console.dfy ===
/**
  The console side of the wrapper: the input loop that turns typed lines into
  queued events, and the routing of an `Input` event's line to a command, to
  the child as a raw command, or to nothing.
*/
module Console {
  import opened Outcomes
  import opened Events
  import opened Text

  /** The stripped lines that end the console session and ask the wrapper to exit. */
  predicate IsExitToken(t: string) {
    t == "exit" || t == "x"
  }

  /** The events a run of the input loop queued, how many lines it read, and whether it ended on an exit token. */
  datatype Session = Session(events: seq<Event>, read: nat, exited: bool)

  /** The input loop over lines already stripped. */
  function Enqueue(texts: seq<string>): (r: Session)
    ensures r.read <= |texts| && |r.events| == r.read
    ensures !r.exited ==> r.read == |texts|
    ensures r.exited ==> r.read > 0 && r.events[r.read - 1] == Exit && IsExitToken(texts[r.read - 1])
    ensures forall i :: 0 <= i < r.read && (i < r.read - 1 || !r.exited) ==>
      !IsExitToken(texts[i]) && r.events[i] == Input(texts[i])
    decreases |texts|
  {
    if texts == [] then Session([], 0, false)
    else if IsExitToken(texts[0]) then Session([Exit], 1, true)
    else
      var rest := Enqueue(texts[1..]);
      Session([Input(texts[0])] + rest.events, rest.read + 1, rest.exited)
  }

  /**
    `_loop_input` over the lines typed, in order: each line is stripped; an exit
    token queues `Exit` and ends the loop; any other line is queued as `Input`.
  */
  function Read(lines: seq<string>): (r: Session)
    ensures r.read <= |lines| && |r.events| == r.read
    ensures !r.exited ==> r.read == |lines|
    ensures r.exited ==> r.read > 0 && r.events[r.read - 1] == Exit && IsExitToken(Strip(lines[r.read - 1]))
    ensures forall i :: 0 <= i < r.read && (i < r.read - 1 || !r.exited) ==>
      !IsExitToken(Strip(lines[i])) && r.events[i] == Input(Strip(lines[i]))
  {
    Enqueue(StripAll(lines))
  }

  function StripAll(lines: seq<string>): (texts: seq<string>)
    ensures |texts| == |lines|
    ensures forall i :: 0 <= i < |lines| ==> texts[i] == Strip(lines[i])
  {
    if lines == [] then [] else [Strip(lines[0])] + StripAll(lines[1..])
  }

  /**
    The session ends on an exit token exactly when one was typed, and then on
    the first one; only that line becomes `Exit`, so no exit token ever reaches
    the queue as `Input`.
  */
  lemma ReadExits(lines: seq<string>)
    ensures Read(lines).exited <==> exists i :: 0 <= i < |lines| && IsExitToken(Strip(lines[i]))
  {
    var texts := StripAll(lines);
    EnqueueExits(texts);
    assert forall i :: 0 <= i < |lines| ==> texts[i] == Strip(lines[i]);
  }

  /** Only the last event a session queues can be `Exit`, and it is exactly when the session ended on an exit token. */
  lemma SessionShape(lines: seq<string>)
    ensures var r := Read(lines);
      && (forall i :: 0 <= i < |r.events| - 1 ==> r.events[i] != Exit)
      && (r.exited <==> r.events != [] && r.events[|r.events| - 1] == Exit)
  {
    EnqueueShape(StripAll(lines));
  }

  lemma EnqueueShape(texts: seq<string>)
    ensures var r := Enqueue(texts);
      && (forall i :: 0 <= i < |r.events| - 1 ==> r.events[i] != Exit)
      && (r.exited <==> r.events != [] && r.events[|r.events| - 1] == Exit)
  {
    var r := Enqueue(texts);
    assert forall i :: 0 <= i < |r.events| - 1 ==> r.events[i].Input?;
    if !r.exited && r.events != [] {
      assert r.events[|r.events| - 1].Input?;
    }
  }

  /** Enqueue's view of the same facts, over already-stripped lines. */
  lemma {:induction false} EnqueueExits(texts: seq<string>)
    ensures Enqueue(texts).exited <==> exists i :: 0 <= i < |texts| && IsExitToken(texts[i])
    decreases |texts|
  {
    if texts != [] && !IsExitToken(texts[0]) {
      EnqueueExits(texts[1..]);
      if exists i :: 0 <= i < |texts| && IsExitToken(texts[i]) {
        var i :| 0 <= i < |texts| && IsExitToken(texts[i]);
        assert IsExitToken(texts[1..][i - 1]);
      }
      if Enqueue(texts[1..]).exited {
        var i :| 0 <= i < |texts[1..]| && IsExitToken(texts[1..][i]);
        assert IsExitToken(texts[i + 1]);
      }
    }
  }

  /** The console commands of `_cmd_map`. */
  datatype Command = StartServer | RestartServer | Echo | SendRaw | Load | RunProcedure

  const CommandTable: map<string, Command> := map[
    "start" := StartServer,
    "restart" := RestartServer,
    "echo" := Echo,
    "send" := SendRaw,
    ">" := SendRaw,
    "load" := Load,
    "run" := RunProcedure]

  /** `send` and `>` name the same command; every other command has one name. */
  lemma CommandNames(a: string, b: string)
    requires a in CommandTable && b in CommandTable && a != b
    ensures CommandTable[a] == CommandTable[b] <==> (a == "send" && b == ">") || (a == ">" && b == "send")
  {
  }

  /** What `_handle_input_event` does with a line. */
  datatype Routing = Blank | Invoke(command: Command, argument: string) | Forward(line: string)

  /**
    `_handle_input_event`: the line is right-stripped and split at its first
    whitespace; a blank line does nothing; a known command name gets the rest of
    the line (or the empty string) as its argument; anything else is forwarded
    whole.
  */
  function Route(text: string): (r: Routing)
    ensures r.Blank? <==> AllSpace(text)
    ensures r.Forward? ==> r.line == RStrip(text) && r.line != []
    ensures r.Forward? ==> SplitFirst(r.line)[0] !in CommandTable
    ensures var tokens := SplitFirst(RStrip(text));
      tokens != [] && tokens[0] !in CommandTable ==> r == Forward(RStrip(text))
    ensures var tokens := SplitFirst(RStrip(text));
      r.Invoke? ==> tokens != [] && tokens[0] in CommandTable && r.command == CommandTable[tokens[0]]
    ensures r.Invoke? ==> r.argument == [] || !IsSpace(r.argument[0])
  {
    var line := RStrip(text);
    var tokens := SplitFirst(line);
    if tokens == [] then Blank
    else if tokens[0] in CommandTable then
      var argument := if |tokens| > 1 then tokens[1] else "";
      Invoke(CommandTable[tokens[0]], argument)
    else Forward(line)
  }

  /**
    A command name, whitespace, and an argument that starts and ends with
    non-whitespace, however padded, invokes that command with exactly that
    argument; inner whitespace of the argument is kept.
  */
  lemma RouteInvoke(lead: string, name: string, gap: string, argument: string, trail: string)
    requires AllSpace(lead) && AllSpace(trail) && AllSpace(gap) && gap != []
    requires name in CommandTable
    requires argument != [] && !IsSpace(argument[0]) && !IsSpace(argument[|argument| - 1])
    ensures Route(lead + name + gap + argument + trail) == Invoke(CommandTable[name], argument)
  {
    var line := lead + name + gap + argument;
    var text := line + trail;
    assert text == lead + name + gap + argument + trail;
    assert text[..|line|] == line && text[|line|..] == trail;
    RStripUnique(text, line);
    CommandNamesAreWords(name);
    SplitFirstTwo(lead, name, gap, argument);
  }

  /** A command name, whitespace, and an argument with no padding of its own invoke that command with that argument. */
  lemma RouteNamed(name: string, gap: string, argument: string)
    requires name in CommandTable
    requires AllSpace(gap) && gap != []
    requires argument != [] && !IsSpace(argument[0]) && !IsSpace(argument[|argument| - 1])
    ensures Route(name + gap + argument) == Invoke(CommandTable[name], argument)
  {
    var text := name + gap + argument;
    assert [] + name + gap + argument + [] == text by {
      assert [] + name == name;
      assert text + [] == text;
    }
    RouteInvoke([], name, gap, argument, []);
  }

  /** A command name alone, however padded, invokes that command with the empty argument. */
  lemma RouteBare(lead: string, name: string, trail: string)
    requires AllSpace(lead) && AllSpace(trail)
    requires name in CommandTable
    ensures Route(lead + name + trail) == Invoke(CommandTable[name], "")
  {
    var line := lead + name;
    var text := line + trail;
    assert text == lead + name + trail;
    CommandNamesAreWords(name);
    assert text[..|line|] == line && text[|line|..] == trail;
    RStripUnique(text, line);
    assert line == lead + name + [];
    SplitFirstOne(lead, name, []);
  }

  /**
    A line the console queued is already stripped, so when its first word is no
    command it is forwarded exactly as the operator typed it, less the padding.
  */
  lemma RouteQueued(line: string)
    requires SplitFirst(Strip(line)) != [] && SplitFirst(Strip(line))[0] !in CommandTable
    ensures Route(Strip(line)) == Forward(Strip(line))
  {
    RStripStripped(line);
  }

  /** `stop` is the child's own command, not one of the console's. */
  lemma StopIsNoCommand()
    ensures "stop" !in CommandTable && "stop" != [] && NoSpace("stop")
  {
  }

  lemma CommandNamesAreWords(name: string)
    requires name in CommandTable
    ensures name != [] && NoSpace(name) && !IsSpace(name[|name| - 1])
  {
  }
}

=== FILE: effects.dfy ===
/**
  Everything the wrapper does that can be observed from outside, as one ordered
  trace: text reaching the child's standard input, the child's lifecycle, the
  messages the operator sees, and the stopping and joining of threads.
*/
module Effects {
  import opened Outcomes

  /** A thread the shutdown sequence stops and joins. */
  datatype Component = InputReader | JobThread(job: nat) | ObserverThread(observer: nat)

  /** A message shown to the operator. */
  datatype Notice =
    | NotRunning             // "Server is not running!"
    | AlreadyRunning         // "Server is already running!"
    | InvalidPath(path: string)
    | UnknownEvent(kind: string)
    | HandlerFailed          // an event handler raised; its trace is printed
    | Echoed(message: string)
    | WrapperStopped         // "Wrapper has stopped."

  datatype Effect =
    | Spawned                // child process launched, output relay started
    | Wrote(text: string)    // text written and flushed to the child's stdin
    | Reaped                 // waited for the child to exit and joined the output relay
    | Exited                 // the child ended on its own (its output stream closed)
    | Told(notice: Notice)
    | Signalled(component: Component)   // the component's stop() was called
    | Joined(component: Component)      // the component's thread was joined
    | Invoked(procedure: string, params: Option<string>)

  /** The texts written to the child's stdin, in the order they were written. */
  function Writes(trace: seq<Effect>): (texts: seq<string>)
    ensures |texts| <= |trace|
    ensures (forall i :: 0 <= i < |trace| ==> !trace[i].Wrote?) ==> texts == []
  {
    if trace == [] then []
    else (if trace[0].Wrote? then [trace[0].text] else []) + Writes(trace[1..])
  }

  lemma WritesOne(e: Effect)
    ensures Writes([e]) == if e.Wrote? then [e.text] else []
  {
    assert [e][1..] == [];
  }

  lemma {:induction false} WritesAppend(a: seq<Effect>, b: seq<Effect>)
    ensures Writes(a + b) == Writes(a) + Writes(b)
    decreases |a|
  {
    if a != [] {
      assert (a + b)[0] == a[0];
      assert (a + b)[1..] == a[1..] + b;
      WritesAppend(a[1..], b);
      var head := if a[0].Wrote? then [a[0].text] else [];
      assert Writes(a + b) == head + (Writes(a[1..]) + Writes(b));
    } else {
      assert a + b == b;
    }
  }

  /** Whether an effect is a step of the child's own lifecycle. */
  predicate IsLifecycle(e: Effect) {
    e.Spawned? || e.Reaped? || e.Exited?
  }

  /** The child's lifecycle as the trace records it: its spawns, reaps and own exits, in order. */
  function Lifecycle(trace: seq<Effect>): (steps: seq<Effect>)
    ensures |steps| <= |trace|
    ensures forall i :: 0 <= i < |steps| ==> IsLifecycle(steps[i])
    ensures (forall i :: 0 <= i < |trace| ==> !IsLifecycle(trace[i])) ==> steps == []
  {
    if trace == [] then []
    else
      var rest := Lifecycle(trace[1..]);
      var steps := (if IsLifecycle(trace[0]) then [trace[0]] else []) + rest;
      assert forall i :: 1 <= i < |trace| ==> trace[i] == trace[1..][i - 1];
      steps
  }

  lemma LifecycleOne(e: Effect)
    ensures Lifecycle([e]) == if IsLifecycle(e) then [e] else []
  {
    assert [e][1..] == [];
  }

  lemma {:induction false} LifecycleAppend(a: seq<Effect>, b: seq<Effect>)
    ensures Lifecycle(a + b) == Lifecycle(a) + Lifecycle(b)
    decreases |a|
  {
    if a != [] {
      assert (a + b)[0] == a[0];
      assert (a + b)[1..] == a[1..] + b;
      LifecycleAppend(a[1..], b);
      var head := if IsLifecycle(a[0]) then [a[0]] else [];
      assert Lifecycle(a + b) == head + (Lifecycle(a[1..]) + Lifecycle(b));
    } else {
      assert a + b == b;
    }
  }
}

=== FILE: events.dfy ===
/** The events that flow through the wrapper's queue. */
module Events {

  /**
    One queued event. `Exit` asks the wrapper to shut down; `Input` carries a
    console line; `JobFired` is a command-sequence job's payload (its title and
    the newline-terminated text of one command group); `FileChanged` names a file
    a directory observer saw created or modified. `Unregistered` stands for an
    event object of a class the handler table has no entry for (a bare `Event`,
    for one), identified by its class name.
  */
  datatype Event =
    | Exit
    | Input(text: string)
    | JobFired(title: string, text: string)
    | FileChanged(path: string)
    | Unregistered(kind: string)
}

=== FILE: jobs.dfy ===
/**
  The command-sequence job: a title, one newline-terminated command text per
  configured group, and a cursor that cycles through the groups, one event per
  tick, until the job is stopped. The wait between ticks is not modelled; a
  tick is one iteration of the job thread's loop.
*/
module Jobs {
  import opened Outcomes
  import opened Events
  import opened Text

  datatype Job = Job(title: string, texts: seq<string>, index: nat, stopped: bool)

  /** The invariant every constructed job keeps: at least one group, cursor in range. */
  predicate Valid(j: Job) {
    |j.texts| > 0 && j.index < |j.texts|
  }

  /** Constructing a job over zero groups divides by zero when normalising the index. */
  datatype JobError = NoGroups

  /** The text sent for one group: its commands joined with newlines, plus a final newline. */
  function GroupText(commands: seq<string>): (text: string)
    ensures |text| > 0 && text[|text| - 1] == '\n'
  {
    JoinLines(commands) + "\n"
  }

  /**
    A group's text holds each of its commands on its own line, so reading the
    lines back gives the commands, provided there is at least one command and
    none contains a newline. (With no commands the text is a lone newline, the
    same as for a single empty command.)
  */
  lemma GroupTextLines(commands: seq<string>)
    requires commands != []
    requires forall i :: 0 <= i < |commands| ==> '\n' !in commands[i]
    ensures ParseLines(GroupText(commands)) == commands
  {
    JoinLinesTerminated(commands);
    ParseTerminated(commands);
  }

  lemma MulAtLeast(d: int, n: int)
    requires d >= 1 && n > 0
    ensures d * n >= n
  {
  }

  /** Quotient and remainder are unique: Dafny's `/` and `%`, like Python's, leave a remainder in `[0, n)`. */
  lemma DivModUnique(y: int, q: int, r: int, n: int)
    requires n > 0 && 0 <= r < n && y == q * n + r
    ensures y % n == r && y / n == q
  {
    var q' := y / n;
    var r' := y % n;
    assert y == q' * n + r';
    var d := q' - q;
    assert d * n == q' * n - q * n;
    assert d * n == r - r';
    if d >= 1 {
      MulAtLeast(d, n);
    } else if d <= -1 {
      MulAtLeast(-d, n);
    }
  }

  lemma ModMultiple(x: int, q: int, n: int)
    requires n > 0
    ensures (x + q * n) % n == x % n
  {
    var p := x / n;
    assert x == p * n + x % n;
    assert (p + q) * n == p * n + q * n;
    DivModUnique(x + q * n, p + q, x % n, n);
  }

  lemma ModShift(a: int, b: int, n: int)
    requires n > 0
    ensures (a % n + b) % n == (a + b) % n
  {
    var p := a / n;
    assert a == p * n + a % n;
    assert (-p) * n == -(p * n);
    ModMultiple(a + b, -p, n);
  }

  /**
    `CommandSequenceJob.__init__`: one text per group and the start index taken
    modulo the number of groups; no job exists when there are no groups.
  */
  function Create(title: string, index: int, groups: seq<seq<string>>): (r: Result<Job, JobError>)
    ensures r.Failure? <==> groups == []
    ensures r.Success? ==> Valid(r.value) && !r.value.stopped && r.value.title == title
    ensures r.Success? ==> |r.value.texts| == |groups|
    ensures r.Success? ==> forall i :: 0 <= i < |groups| ==> r.value.texts[i] == GroupText(groups[i])
    ensures r.Success? ==> (index - r.value.index) % |groups| == 0
  {
    if groups == [] then Failure(NoGroups)
    else
      var n := |groups|;
      var p := index / n;
      assert index == p * n + index % n;
      DivModUnique(p * n, p, 0, n);
      Success(Job(title, seq(n, i requires 0 <= i < n => GroupText(groups[i])), index % n, false))
  }

  /** A start index already in range is kept; a negative one down to `-n` counts from the last group. */
  lemma CreateIndex(title: string, index: int, groups: seq<seq<string>>)
    requires groups != []
    ensures 0 <= index < |groups| ==> Create(title, index, groups).value.index == index
    ensures -|groups| <= index < 0 ==> Create(title, index, groups).value.index == index + |groups|
  {
    var n := |groups|;
    if 0 <= index < n {
      DivModUnique(index, 0, index, n);
    } else if -n <= index < 0 {
      DivModUnique(index, -1, index + n, n);
    }
  }

  /** One pass of the job loop: the outcome of checking the stop flag. */
  datatype Tick = Fired(job: Job, event: Event) | Finished

  /**
    `_loop_interval`, one iteration: a stopped job ends its loop; otherwise it
    emits its title with the current group's text and moves to the next group,
    wrapping after the last.
  */
  function Step(j: Job): (r: Tick)
    requires Valid(j)
    ensures r.Finished? <==> j.stopped
    ensures r.Fired? ==> r.event == JobFired(j.title, j.texts[j.index])
    ensures r.Fired? ==> Valid(r.job) && r.job.title == j.title && r.job.texts == j.texts && !r.job.stopped
    ensures r.Fired? ==> r.job.index == if j.index + 1 == |j.texts| then 0 else j.index + 1
  {
    if j.stopped then Finished
    else Fired(j.(index := (j.index + 1) % |j.texts|), JobFired(j.title, j.texts[j.index]))
  }

  /** `stop`: sets the flag the loop checks; nothing else about the job changes. */
  function Stop(j: Job): (r: Job)
    ensures r.stopped
    ensures r.title == j.title && r.texts == j.texts && r.index == j.index
  {
    j.(stopped := true)
  }

  /** The job after up to `k` iterations of its loop, and the events it emitted, in order. */
  function Iterate(j: Job, k: nat): (r: (Job, seq<Event>))
    requires Valid(j)
    ensures Valid(r.0) && r.0.title == j.title && r.0.texts == j.texts && r.0.stopped == j.stopped
    ensures |r.1| <= k
    ensures forall i :: 0 <= i < |r.1| ==> r.1[i].JobFired? && r.1[i].title == j.title
    decreases k
  {
    if k == 0 then (j, [])
    else
      match Step(j)
      case Finished => (j, [])
      case Fired(j', e) =>
        var rest := Iterate(j', k - 1);
        (rest.0, [e] + rest.1)
  }

  /**
    A running job cycles through its groups: starting at index `i`, its `m`-th
    emission carries the text of group `(i + m) mod n`, always under the job's
    own title, and after `k` iterations the cursor stands at `(i + k) mod n`.
  */
  lemma {:induction false} Cyclic(j: Job, k: nat)
    requires Valid(j) && !j.stopped
    ensures |Iterate(j, k).1| == k
    ensures forall m :: 0 <= m < k ==>
      Iterate(j, k).1[m] == JobFired(j.title, j.texts[(j.index + m) % |j.texts|])
    ensures Iterate(j, k).0.index == (j.index + k) % |j.texts|
    decreases k
  {
    var n := |j.texts|;
    if k == 0 {
      DivModUnique(j.index, 0, j.index, n);
    } else {
      var j' := Step(j).job;
      assert j'.index == (j.index + 1) % n;
      Cyclic(j', k - 1);
      var events := Iterate(j, k).1;
      assert events == [JobFired(j.title, j.texts[j.index])] + Iterate(j', k - 1).1;
      forall m | 0 <= m < k
        ensures events[m] == JobFired(j.title, j.texts[(j.index + m) % n])
      {
        if m == 0 {
          DivModUnique(j.index, 0, j.index, n);
        } else {
          ModShift(j.index + 1, m - 1, n);
        }
      }
      ModShift(j.index + 1, k - 1, n);
    }
  }

  /** From the first group, `n` iterations emit every group's text once, in order, and come back to the first. */
  lemma FullCycle(j: Job)
    requires Valid(j) && !j.stopped && j.index == 0
    ensures |Iterate(j, |j.texts|).1| == |j.texts|
    ensures forall m :: 0 <= m < |j.texts| ==> Iterate(j, |j.texts|).1[m] == JobFired(j.title, j.texts[m])
    ensures Iterate(j, |j.texts|).0.index == 0
  {
    var n := |j.texts|;
    Cyclic(j, n);
    forall m | 0 <= m < n ensures Iterate(j, n).1[m] == JobFired(j.title, j.texts[m]) {
      DivModUnique(m, 0, m, n);
    }
    DivModUnique(n, 1, 0, n);
  }

  /** Once the stop flag is set the loop emits nothing, however many iterations are allowed. */
  lemma StoppedIsSilent(j: Job, k: nat)
    requires Valid(j)
    ensures Iterate(Stop(j), k).1 == []
    ensures Iterate(Stop(j), k).0 == Stop(j)
  {
  }
}

=== FILE: outcomes.dfy ===
/** Failure-carrying wrappers shared by the other modules. */
module Outcomes {

  /** A value that may be absent (a dictionary lookup that finds nothing). */
  datatype Option<+T> = None | Some(value: T)

  /** A computation that either produces a value or fails with an error (a raised exception). */
  datatype Result<+T, +E> = Success(value: T) | Failure(error: E)
}

=== FILE: supervisor.dfy ===
/**
  The server supervisor: whether a child process is running, and the effects
  each lifecycle operation and each write produces. Whether the child is
  running is an explicit status here; the wrapper infers it from the liveness
  of the child's output-relay thread, which ends when the child closes its
  output, so a child that exits by itself is the `ChildExit` transition.
*/
module Supervisor {
  import opened Outcomes
  import opened Effects

  datatype Status = Stopped | Running

  /** The status an operation leaves behind and the effects it produced, in order. */
  datatype Transition = Transition(status: Status, emitted: seq<Effect>)

  /**
    The lifecycle automaton every trace must follow: a child is spawned only
    when none runs, written to and reaped only while it runs, and effects that
    do not touch the child are allowed in either status. `None` marks an
    effect that is illegal in the given status.
  */
  function Advance(s: Status, e: Effect): Option<Status>
  {
    match e
    case Spawned => if s == Stopped then Some(Running) else None
    case Wrote(_) => if s == Running then Some(Running) else None
    case Reaped => if s == Running then Some(Stopped) else None
    case Exited => if s == Running then Some(Stopped) else None
    case _ => Some(s)
  }

  /** Runs the automaton over a whole trace. */
  function Replay(s: Status, trace: seq<Effect>): Option<Status>
    decreases |trace|
  {
    if trace == [] then Some(s)
    else
      match Advance(s, trace[0])
      case None => None
      case Some(t) => Replay(t, trace[1..])
  }

  lemma {:induction false} ReplayAppend(s: Status, a: seq<Effect>, b: seq<Effect>)
    ensures Replay(s, a + b) == (match Replay(s, a) case None => None case Some(t) => Replay(t, b))
    decreases |a|
  {
    if a == [] {
      assert a + b == b;
    } else {
      assert (a + b)[0] == a[0];
      assert (a + b)[1..] == a[1..] + b;
      match Advance(s, a[0])
      case None =>
      case Some(t) => ReplayAppend(t, a[1..], b);
    }
  }

  lemma ReplayOne(s: Status, e: Effect)
    ensures Replay(s, [e]) == Advance(s, e)
  {
    assert [e][1..] == [];
  }

  /** Effects that neither touch the child nor depend on it: messages and thread bookkeeping. */
  predicate Inert(trace: seq<Effect>) {
    forall i :: 0 <= i < |trace| ==> !(trace[i].Spawned? || trace[i].Wrote? || trace[i].Reaped? || trace[i].Exited?)
  }

  /** An inert stretch of trace is allowed in either status, leaves it as it is and writes nothing. */
  lemma {:induction false} ReplayInert(s: Status, trace: seq<Effect>)
    requires Inert(trace)
    ensures Replay(s, trace) == Some(s)
    ensures Writes(trace) == []
    decreases |trace|
  {
    if trace != [] {
      assert Advance(s, trace[0]) == Some(s);
      ReplayInert(s, trace[1..]);
    }
  }

  /** A transition from `s` the lifecycle automaton accepts, ending where it says. */
  predicate Legal(s: Status, t: Transition) {
    Replay(s, t.emitted) == Some(t.status)
  }

  /** Doing `u` from where `t` ends, after `t`. */
  function Then(t: Transition, u: Transition): Transition {
    Transition(u.status, t.emitted + u.emitted)
  }

  lemma ThenLegal(s: Status, t: Transition, u: Transition)
    requires Legal(s, t) && Legal(t.status, u)
    ensures Legal(s, Then(t, u))
  {
    ReplayAppend(s, t.emitted, u.emitted);
  }

  /**
    `pipe(text)` (`_write_server`): the text goes to the child verbatim while it
    runs; otherwise nothing is written and the operator is told it is not running.
  */
  function Pipe(s: Status, text: string): (t: Transition)
    ensures Legal(s, t)
    ensures t.status == s
    ensures s == Running ==> Writes(t.emitted) == [text]
    ensures s == Stopped ==> Writes(t.emitted) == [] && Told(NotRunning) in t.emitted
    ensures Lifecycle(t.emitted) == []
    ensures |t.emitted| == 1
  {
    ReplayOne(s, Wrote(text));
    ReplayOne(s, Told(NotRunning));
    if s == Running then Transition(Running, [Wrote(text)])
    else Transition(Stopped, [Told(NotRunning)])
  }

  /** `send(text)`: the text as one newline-terminated command. */
  function Send(s: Status, text: string): (t: Transition)
    ensures Legal(s, t)
    ensures t.status == s
    ensures s == Running ==> Writes(t.emitted) == [text + "\n"]
    ensures s == Stopped ==> Writes(t.emitted) == [] && Told(NotRunning) in t.emitted
    ensures Lifecycle(t.emitted) == []
    ensures |t.emitted| == 1
  {
    Pipe(s, text + "\n")
  }

  /**
    `start_server`: launches a child only when none runs; with one running it
    leaves it untouched and reports that it is already running.
  */
  function Start(s: Status): (t: Transition)
    ensures Legal(s, t)
    ensures t.status == Running
    ensures Writes(t.emitted) == []
    ensures Spawned in t.emitted <==> s == Stopped
    ensures s == Running ==> t.emitted == [Told(AlreadyRunning)]
    ensures Lifecycle(t.emitted) == if s == Stopped then [Spawned] else []
    ensures |t.emitted| == 1
  {
    LifecycleOne(Spawned);
    ReplayOne(s, Spawned);
    ReplayOne(s, Told(AlreadyRunning));
    if s == Running then Transition(Running, [Told(AlreadyRunning)])
    else Transition(Running, [Spawned])
  }

  /**
    `stop_server`: with a child running, sends it the `stop` command, waits for
    it to exit and joins its output relay; otherwise writes nothing and reports
    that it is not running.
  */
  function Stop(s: Status): (t: Transition)
    ensures Legal(s, t)
    ensures t.status == Stopped
    ensures s == Running ==> t.emitted == [Wrote("stop\n"), Reaped] && Writes(t.emitted) == ["stop\n"]
    ensures s == Stopped ==> t.emitted == [Told(NotRunning)]
  {
    if s == Stopped then
      ReplayOne(s, Told(NotRunning));
      Transition(Stopped, [Told(NotRunning)])
    else
      var send := Send(s, "stop");
      var reap := Transition(Stopped, [Reaped]);
      assert "stop" + "\n" == "stop\n";
      assert send.emitted == [Wrote("stop\n")];
      ReplayOne(Running, Reaped);
      ThenLegal(s, send, reap);
      WritesAppend(send.emitted, reap.emitted);
      Then(send, reap)
  }

  lemma StopLifecycle(s: Status)
    ensures Lifecycle(Stop(s).emitted) == if s == Running then [Reaped] else []
  {
    LifecycleAppend([Wrote("stop\n")], [Reaped]);
    LifecycleOne(Wrote("stop\n"));
    LifecycleOne(Reaped);
    LifecycleOne(Told(NotRunning));
    assert [Wrote("stop\n")] + [Reaped] == [Wrote("stop\n"), Reaped];
  }

  /** Sending `stop` to a running child writes the same text `stop_server` does. */
  lemma SendStop(s: Status)
    requires s == Running
    ensures Writes(Send(s, "stop").emitted) == ["stop\n"]
  {
    assert "stop" + "\n" == "stop\n";
  }

  /** `restart_server`: stop, then start. */
  function Restart(s: Status): (t: Transition)
    ensures Legal(s, t)
    ensures t.status == Running
    ensures s == Running ==> Writes(t.emitted) == ["stop\n"]
    ensures s == Stopped ==> Writes(t.emitted) == []
    ensures Spawned in t.emitted
    ensures Lifecycle(t.emitted) == (if s == Running then [Reaped] else []) + [Spawned]
    ensures s == Stopped ==> t.emitted == [Told(NotRunning), Spawned]
    ensures s == Running ==> t.emitted == [Wrote("stop\n"), Reaped, Spawned]
  {
    var stop := Stop(s);
    var start := Start(stop.status);
    ThenLegal(s, stop, start);
    WritesAppend(stop.emitted, start.emitted);
    LifecycleAppend(stop.emitted, start.emitted);
    StopLifecycle(s);
    Then(stop, start)
  }

  /** The child ending by itself: its output relay finishes and the wrapper sees it as not running. */
  function ChildExit(s: Status): (t: Transition)
    ensures Legal(s, t)
    ensures t.status == Stopped
    ensures Writes(t.emitted) == []
    ensures Lifecycle(t.emitted) == if s == Running then [Exited] else []
    ensures |t.emitted| == if s == Running then 1 else 0
  {
    LifecycleOne(Exited);
    ReplayOne(s, Exited);
    if s == Running then Transition(Stopped, [Exited]) else Transition(Stopped, [])
  }

  /** Starting twice launches at most one child: the second start only reports. */
  lemma StartTwice(s: Status)
    ensures Start(Start(s).status) == Transition(Running, [Told(AlreadyRunning)])
    ensures Lifecycle(Then(Start(s), Start(Start(s).status)).emitted) == if s == Stopped then [Spawned] else []
  {
    LifecycleAppend(Start(s).emitted, Start(Start(s).status).emitted);
  }

  /**
    Writes happen only while a child runs: in any trace the automaton accepts
    from `s`, each write is preceded by a spawn, or the trace began with a child running.
  */
  lemma {:induction false} WriteNeedsChild(s: Status, trace: seq<Effect>, i: nat)
    requires Replay(s, trace) != None
    requires i < |trace| && trace[i].Wrote?
    ensures s == Running || Spawned in trace[..i]
    decreases |trace|
  {
    if i > 0 && s == Stopped {
      var t := Advance(s, trace[0]).value;
      if trace[0] == Spawned {
        assert trace[..i][0] == Spawned;
      } else {
        assert t == Stopped;
        WriteNeedsChild(t, trace[1..], i - 1);
        assert trace[1..][..i - 1] == trace[..i][1..];
      }
    }
  }
}

=== FILE: text.dfy ===
/**
  The string operations the wrapper applies to console lines and command groups:
  Python's `str.strip`, `str.rstrip`, `str.split(maxsplit=1)` and `'\n'.join`,
  with "whitespace" meaning exactly the characters for which `str.isspace` holds.
*/
module Text {

  /** The characters Python treats as whitespace when stripping and splitting. */
  predicate IsSpace(c: char) {
    var n := c as int;
    || (0x09 <= n <= 0x0D)
    || (0x1C <= n <= 0x20)
    || n == 0x85 || n == 0xA0 || n == 0x1680
    || (0x2000 <= n <= 0x200A)
    || n == 0x2028 || n == 0x2029 || n == 0x202F || n == 0x205F || n == 0x3000
  }

  predicate AllSpace(s: string) {
    forall i :: 0 <= i < |s| ==> IsSpace(s[i])
  }

  predicate NoSpace(s: string) {
    forall i :: 0 <= i < |s| ==> !IsSpace(s[i])
  }

  /** `s.rstrip()`: the longest prefix of `s` that does not end in whitespace. */
  function RStrip(s: string): (r: string)
    ensures |r| <= |s| && r == s[..|r|]
    ensures AllSpace(s[|r|..])
    ensures r == [] || !IsSpace(r[|r| - 1])
    ensures r == [] <==> AllSpace(s)
    decreases |s|
  {
    if s != [] && IsSpace(s[|s| - 1]) then
      var r := RStrip(s[..|s| - 1]);
      assert s[|r|..] == s[..|s| - 1][|r|..] + [s[|s| - 1]];
      r
    else s
  }

  /** The three properties of RStrip's contract determine its result. */
  lemma RStripUnique(s: string, p: string)
    requires |p| <= |s| && p == s[..|p|]
    requires AllSpace(s[|p|..])
    requires p == [] || !IsSpace(p[|p| - 1])
    ensures RStrip(s) == p
  {
    var r := RStrip(s);
    forall i | |r| <= i < |s| ensures IsSpace(s[i]) {
      assert s[i] == s[|r|..][i - |r|];
    }
    forall i | |p| <= i < |s| ensures IsSpace(s[i]) {
      assert s[i] == s[|p|..][i - |p|];
    }
  }

  /** `s.lstrip()`: the longest suffix of `s` that does not start with whitespace. */
  function LStrip(s: string): (r: string)
    ensures |r| <= |s| && r == s[|s| - |r|..]
    ensures AllSpace(s[..|s| - |r|])
    ensures r == [] || !IsSpace(r[0])
    ensures r == [] <==> AllSpace(s)
    decreases |s|
  {
    if s != [] && IsSpace(s[0]) then
      var r := LStrip(s[1..]);
      assert s[..|s| - |r|] == [s[0]] + s[1..][..|s| - 1 - |r|];
      r
    else s
  }

  /** The three properties of LStrip's contract determine its result. */
  lemma {:induction false} LStripUnique(s: string, p: string)
    requires |p| <= |s| && p == s[|s| - |p|..]
    requires AllSpace(s[..|s| - |p|])
    requires p == [] || !IsSpace(p[0])
    ensures LStrip(s) == p
    decreases |s|
  {
    if s != [] && IsSpace(s[0]) {
      assert s[1..][|s| - 1 - |p|..] == p;
      assert s[1..][..|s| - 1 - |p|] == s[..|s| - |p|][1..];
      LStripUnique(s[1..], p);
    }
  }

  /** `s.strip()`: whitespace removed from both ends. */
  function Strip(s: string): (r: string)
    ensures |r| <= |s|
    ensures r == [] || (!IsSpace(r[0]) && !IsSpace(r[|r| - 1]))
    ensures r == [] <==> AllSpace(s)
  {
    var t := RStrip(s);
    var r := LStrip(t);
    assert r != [] ==> r[|r| - 1] == t[|t| - 1];
    assert t != [] ==> !IsSpace(s[|t| - 1]);
    assert t == [] ==> s[|t|..] == s;
    assert r == [] ==> t[..|t| - |r|] == t;
    r
  }

  /** A stripped text has nothing left for RStrip to remove. */
  lemma RStripStripped(s: string)
    ensures RStrip(Strip(s)) == Strip(s)
  {
    var r := Strip(s);
    assert r == [] || !IsSpace(r[|r| - 1]);
  }

  /**
    Strip is characterised by decomposition: whenever `s` is whitespace, then a
    core that neither starts nor ends with whitespace, then whitespace, the core
    is what Strip returns.
  */
  lemma StripOf(lead: string, core: string, trail: string)
    requires AllSpace(lead) && AllSpace(trail)
    requires core == [] || (!IsSpace(core[0]) && !IsSpace(core[|core| - 1]))
    ensures Strip(lead + core + trail) == core
  {
    var s := lead + core + trail;
    if core == [] {
      assert AllSpace(s) by {
        forall i | 0 <= i < |s| ensures IsSpace(s[i]) {
          if i < |lead| { assert s[i] == lead[i]; } else { assert s[i] == trail[i - |lead|]; }
        }
      }
    } else {
      assert s[..|lead + core|] == lead + core;
      assert s[|lead + core|..] == trail;
      RStripUnique(s, lead + core);
      assert (lead + core)[|lead + core| - |core|..] == core;
      assert (lead + core)[..|lead + core| - |core|] == lead;
      LStripUnique(lead + core, core);
    }
  }

  /** The longest whitespace-free prefix of `s`. */
  function TakeWord(s: string): (r: string)
    ensures |r| <= |s| && r == s[..|r|]
    ensures NoSpace(r)
    ensures |r| == |s| || IsSpace(s[|r|])
    decreases |s|
  {
    if s == [] || IsSpace(s[0]) then [] else [s[0]] + TakeWord(s[1..])
  }

  lemma TakeWordUnique(s: string, p: string)
    requires |p| <= |s| && p == s[..|p|]
    requires NoSpace(p)
    requires |p| == |s| || IsSpace(s[|p|])
    ensures TakeWord(s) == p
  {
    var r := TakeWord(s);
    assert forall i :: 0 <= i < |r| ==> !IsSpace(s[i]) by {
      forall i | 0 <= i < |r| ensures !IsSpace(s[i]) { assert s[i] == r[i]; }
    }
    assert forall i :: 0 <= i < |p| ==> !IsSpace(s[i]) by {
      forall i | 0 <= i < |p| ensures !IsSpace(s[i]) { assert s[i] == p[i]; }
    }
  }

  /**
    `line.split(maxsplit=1)`: no token for a blank line; otherwise the first
    whitespace-delimited word and, when anything but whitespace follows it, the
    rest of the line after the whitespace that ends the word.
  */
  function SplitFirst(line: string): (tokens: seq<string>)
    ensures |tokens| <= 2
    ensures tokens == [] <==> AllSpace(line)
    ensures tokens != [] ==> tokens[0] != [] && NoSpace(tokens[0])
    ensures |tokens| == 2 ==> tokens[1] != [] && !IsSpace(tokens[1][0])
  {
    SplitStripped(LStrip(line))
  }

  /** The split of a line whose leading whitespace is already gone. */
  function SplitStripped(a: string): (tokens: seq<string>)
    requires a == [] || !IsSpace(a[0])
    ensures |tokens| <= 2
    ensures tokens == [] <==> a == []
    ensures tokens != [] ==> tokens[0] != [] && NoSpace(tokens[0])
    ensures |tokens| == 2 ==> tokens[1] != [] && !IsSpace(tokens[1][0])
  {
    if a == [] then []
    else
      var word := TakeWord(a);
      var rest := LStrip(a[|word|..]);
      if rest == [] then [word] else [word, rest]
  }

  /** Leading whitespace is exactly what LStrip removes. */
  lemma LStripAfterSpaces(lead: string, p: string)
    requires AllSpace(lead)
    requires p == [] || !IsSpace(p[0])
    ensures LStrip(lead + p) == p
  {
    var s := lead + p;
    assert s[|s| - |p|..] == p;
    assert s[..|s| - |p|] == lead;
    LStripUnique(s, p);
  }

  /** A word followed by nothing or by whitespace is what TakeWord takes. */
  lemma TakeWordOf(word: string, more: string)
    requires NoSpace(word)
    requires more == [] || IsSpace(more[0])
    ensures TakeWord(word + more) == word
  {
    var s := word + more;
    assert s[..|word|] == word;
    assert |word| < |s| ==> s[|word|] == more[0];
    TakeWordUnique(s, word);
  }

  /** A word, then nothing or whitespace first: the word is the first token, and whatever follows the whitespace the second. */
  lemma SplitStrippedOf(word: string, more: string)
    requires word != [] && NoSpace(word)
    requires more == [] || IsSpace(more[0])
    ensures SplitStripped(word + more) == if LStrip(more) == [] then [word] else [word, LStrip(more)]
  {
    var p := word + more;
    assert p[0] == word[0];
    TakeWordOf(word, more);
    assert p[|word|..] == more;
    assert SplitStripped(p) == if LStrip(p[|word|..]) == [] then [word] else [word, LStrip(p[|word|..])];
  }

  /** A line holding one word, however padded, splits into that word alone. */
  lemma SplitFirstOne(lead: string, word: string, trail: string)
    requires AllSpace(lead) && AllSpace(trail)
    requires word != [] && NoSpace(word)
    ensures SplitFirst(lead + word + trail) == [word]
  {
    var p := word + trail;
    assert lead + word + trail == lead + p;
    LStripAfterSpaces(lead, p);
    SplitStrippedOf(word, trail);
  }

  /**
    A line holding a word, a whitespace gap and a rest that starts with a
    non-whitespace character splits into the word and the rest (inner and
    trailing whitespace of the rest preserved).
  */
  lemma SplitFirstTwo(lead: string, word: string, gap: string, rest: string)
    requires AllSpace(lead) && AllSpace(gap) && gap != []
    requires word != [] && NoSpace(word)
    requires rest != [] && !IsSpace(rest[0])
    ensures SplitFirst(lead + word + gap + rest) == [word, rest]
  {
    var g := gap + rest;
    var p := word + g;
    assert lead + word + gap + rest == lead + p;
    LStripAfterSpaces(lead, p);
    LStripAfterSpaces(gap, rest);
    SplitStrippedOf(word, g);
  }

  /** `'\n'.join(lines)`. */
  function JoinLines(lines: seq<string>): string
  {
    if |lines| == 0 then ""
    else if |lines| == 1 then lines[0]
    else lines[0] + "\n" + JoinLines(lines[1..])
  }

  /** Every line followed by its own newline. */
  function Terminated(lines: seq<string>): string
  {
    if lines == [] then "" else lines[0] + "\n" + Terminated(lines[1..])
  }

  /** For at least one line, joining and appending a newline terminates every line. */
  lemma {:induction false} JoinLinesTerminated(lines: seq<string>)
    requires lines != []
    ensures JoinLines(lines) + "\n" == Terminated(lines)
    decreases |lines|
  {
    if |lines| > 1 {
      JoinLinesTerminated(lines[1..]);
    }
  }

  /** Index of the first newline in `s`, or `|s|` when there is none. */
  function LineEnd(s: string): (k: nat)
    ensures k <= |s|
    ensures '\n' !in s[..k]
    ensures k < |s| ==> s[k] == '\n'
    decreases |s|
  {
    if s == [] || s[0] == '\n' then 0
    else
      var k := 1 + LineEnd(s[1..]);
      assert s[..k] == [s[0]] + s[1..][..k - 1];
      k
  }

  lemma LineEndOf(line: string, more: string)
    requires '\n' !in line
    ensures LineEnd(line + "\n" + more) == |line|
  {
    var s := line + "\n" + more;
    var k := LineEnd(s);
    assert s[..|line|] == line;
    assert forall i :: 0 <= i < |line| ==> s[i] == line[i];
    assert s[|line|] == '\n';
    assert forall j :: 0 <= j < k ==> s[..k][j] == s[j];
  }

  /** Splits text into its newline-separated lines; a final newline ends the last line. */
  function ParseLines(s: string): seq<string>
    decreases |s|
  {
    if s == [] then []
    else
      var k := LineEnd(s);
      if k == |s| then [s] else [s[..k]] + ParseLines(s[k + 1..])
  }

  /** Parsing newline-terminated lines gives the lines back when none holds a newline. */
  lemma {:induction false} ParseTerminated(lines: seq<string>)
    requires forall i :: 0 <= i < |lines| ==> '\n' !in lines[i]
    ensures ParseLines(Terminated(lines)) == lines
    decreases |lines|
  {
    if lines != [] {
      var rest := Terminated(lines[1..]);
      var s := lines[0] + "\n" + rest;
      LineEndOf(lines[0], rest);
      assert s[..|lines[0]|] == lines[0];
      assert s[|lines[0]| + 1..] == rest;
      ParseTerminated(lines[1..]);
    }
  }
}

=== FILE: wrapper.dfy ===
/**
  The wrapper itself: its state, the event handlers, loading files into the
  child, the shutdown sequence of the `Exit` handler, and the dispatch loop
  that drains the event queue. The queue is a sequence, each handler a pure
  function of the wrapper state, and the filesystem a map given as a parameter.
*/
module ServerWrapper {
  import opened Outcomes
  import opened Text
  import opened Events
  import opened Effects
  import opened Supervisor
  import Jobs
  import Console

  /** A directory observer: the watched path, whether it is recursive, and whether it was stopped. */
  datatype Observer = Observer(path: string, recursive: bool, stopped: bool)

  /** What a path names: a file with its text, or a directory with the full paths of its entries, in listing order. */
  datatype Entry = File(content: string) | Directory(listing: seq<string>)

  type Files = map<string, Entry>

  datatype Wrapper = Wrapper(status: Status, jobs: seq<Jobs.Job>, observers: seq<Observer>, trace: seq<Effect>)

  /** The trace so far is one the lifecycle automaton accepts from no child, ending in the current status. */
  predicate Consistent(w: Wrapper) {
    Replay(Stopped, w.trace) == Some(w.status)
  }

  /** `w'` only appended to `w`'s trace, and kept it consistent. */
  predicate Extends(w: Wrapper, w': Wrapper) {
    w.trace <= w'.trace && (Consistent(w) ==> Consistent(w'))
  }

  /** Carries out a supervisor transition. */
  function Apply(w: Wrapper, t: Transition): (r: Wrapper)
    requires Legal(w.status, t)
    ensures Extends(w, r)
    ensures r.status == t.status && r.jobs == w.jobs && r.observers == w.observers
    ensures r.trace == w.trace + t.emitted
    ensures Writes(r.trace) == Writes(w.trace) + Writes(t.emitted)
  {
    ReplayAppend(Stopped, w.trace, t.emitted);
    WritesAppend(w.trace, t.emitted);
    w.(status := t.status, trace := w.trace + t.emitted)
  }

  /** Records an effect that leaves the child alone: a message, a thread's bookkeeping, a procedure call. */
  function Record(w: Wrapper, e: Effect): (r: Wrapper)
    requires e.Told? || e.Signalled? || e.Joined? || e.Invoked?
    ensures Extends(w, r)
    ensures r.status == w.status && r.jobs == w.jobs && r.observers == w.observers
    ensures r.trace == w.trace + [e]
    ensures Writes(r.trace) == Writes(w.trace)
  {
    ReplayOne(w.status, e);
    WritesOne(e);
    Apply(w, Transition(w.status, [e]))
  }

  /** Shows the operator a message; nothing else changes. */
  function Note(w: Wrapper, n: Notice): (r: Wrapper)
    ensures Extends(w, r)
    ensures r.status == w.status && r.jobs == w.jobs && r.observers == w.observers
    ensures r.trace == w.trace + [Told(n)]
    ensures Writes(r.trace) == Writes(w.trace)
  {
    Record(w, Told(n))
  }

  /** A handler either returns (true asks the dispatch loop to end) or raises, keeping what it did before raising. */
  datatype Outcome = Returned(after: Wrapper, stop: bool) | Raised(after: Wrapper)

  /**
    `load_file`: pipes the file's text to the child unchanged; opening a path
    that is missing or is a directory raises.
  */
  function LoadFile(w: Wrapper, path: string, fs: Files): (r: Outcome)
    ensures r.Raised? <==> !(path in fs && fs[path].File?)
    ensures r.Raised? ==> r.after == w
    ensures r.Returned? ==> !r.stop && r.after.status == w.status
    ensures r.Returned? ==>
      Writes(r.after.trace) == Writes(w.trace) + (if w.status == Running then [fs[path].content] else [])
    ensures Extends(w, r.after) && r.after.jobs == w.jobs && r.after.observers == w.observers
    ensures Lifecycle(r.after.trace) == Lifecycle(w.trace)
  {
    if path in fs && fs[path].File? then
      var t := Pipe(w.status, fs[path].content);
      LifecycleAppend(w.trace, t.emitted);
      Returned(Apply(w, t), false)
    else Raised(w)
  }

  /** How many entries at the front of a listing are files. */
  function LeadingFiles(listing: seq<string>, fs: Files): (k: nat)
    ensures k <= |listing|
    ensures forall i :: 0 <= i < k ==> listing[i] in fs && fs[listing[i]].File?
    ensures k < |listing| ==> !(listing[k] in fs && fs[listing[k]].File?)
    decreases |listing|
  {
    if listing != [] && listing[0] in fs && fs[listing[0]].File? then 1 + LeadingFiles(listing[1..], fs) else 0
  }

  /** `load_dir`: loads each entry in listing order; the first entry that is not a file raises. */
  function LoadDir(w: Wrapper, listing: seq<string>, fs: Files): (r: Outcome)
    ensures r.Returned? ==> !r.stop
    ensures r.after.status == w.status
    ensures Extends(w, r.after) && r.after.jobs == w.jobs && r.after.observers == w.observers
    ensures Lifecycle(r.after.trace) == Lifecycle(w.trace)
    decreases |listing|
  {
    if listing == [] then Returned(w, false)
    else
      match LoadFile(w, listing[0], fs)
      case Raised(w') => Raised(w')
      case Returned(w', _) => LoadDir(w', listing[1..], fs)
  }

  /** The texts of the files at the front of a listing, in listing order. */
  function LeadingTexts(listing: seq<string>, fs: Files): (texts: seq<string>)
    ensures |texts| == LeadingFiles(listing, fs)
    ensures forall i :: 0 <= i < |texts| ==> texts[i] == fs[listing[i]].content
    decreases |listing|
  {
    if listing != [] && listing[0] in fs && fs[listing[0]].File? then
      var rest := LeadingTexts(listing[1..], fs);
      var texts := [fs[listing[0]].content] + rest;
      assert forall i :: 1 <= i < |texts| ==> texts[i] == rest[i - 1] && listing[i] == listing[1..][i - 1];
      texts
    else []
  }

  /** A directory load raises exactly when it meets an entry that is not a file. */
  lemma {:induction false} LoadDirRaises(w: Wrapper, listing: seq<string>, fs: Files)
    ensures LoadDir(w, listing, fs).Raised? <==> LeadingFiles(listing, fs) < |listing|
    decreases |listing|
  {
    if listing != [] && listing[0] in fs && fs[listing[0]].File? {
      LoadDirRaises(LoadFile(w, listing[0], fs).after, listing[1..], fs);
    }
  }

  /** With a child running, a directory load sends the texts of the leading files, in listing order. */
  lemma {:induction false} LoadDirWrites(w: Wrapper, listing: seq<string>, fs: Files)
    requires w.status == Running
    ensures Writes(LoadDir(w, listing, fs).after.trace) == Writes(w.trace) + LeadingTexts(listing, fs)
    decreases |listing|
  {
    if listing != [] && listing[0] in fs && fs[listing[0]].File? {
      var content := fs[listing[0]].content;
      var w' := LoadFile(w, listing[0], fs).after;
      LoadDirWrites(w', listing[1..], fs);
      assert LoadDir(w, listing, fs) == LoadDir(w', listing[1..], fs);
      assert Writes(w'.trace) == Writes(w.trace) + [content];
      assert LeadingTexts(listing, fs) == [content] + LeadingTexts(listing[1..], fs);
      AppendAssoc(Writes(w.trace), [content], LeadingTexts(listing[1..], fs));
    } else {
      assert LoadDir(w, listing, fs).after == w;
    }
  }

  /**
    `load`: a file is piped, a directory loaded entry by entry, and any other
    path reported as invalid.
  */
  function Load(w: Wrapper, path: string, fs: Files): (r: Outcome)
    ensures r.Returned? ==> !r.stop
    ensures r.after.status == w.status
    ensures Extends(w, r.after) && r.after.jobs == w.jobs && r.after.observers == w.observers
    ensures path !in fs ==> r == Returned(Note(w, InvalidPath(path)), false)
    ensures path in fs && fs[path].File? ==> r == LoadFile(w, path, fs)
    ensures path in fs && fs[path].Directory? ==> r == LoadDir(w, fs[path].listing, fs)
    ensures Lifecycle(r.after.trace) == Lifecycle(w.trace)
  {
    LifecycleAppend(w.trace, [Told(InvalidPath(path))]);
    LifecycleOne(Told(InvalidPath(path)));
    if path in fs && fs[path].File? then LoadFile(w, path, fs)
    else if path in fs then LoadDir(w, fs[path].listing, fs)
    else Returned(Note(w, InvalidPath(path)), false)
  }

  /**
    `run`, as far as it is modelled: the argument's first word names the
    procedure and the rest, if any, is its raw parameter text; an argument with
    no word raises, as indexing the empty token list does.
  */
  function RunProcedure(w: Wrapper, argument: string): (r: Outcome)
    ensures r.Raised? <==> AllSpace(argument)
    ensures r.Returned? ==> !r.stop && Writes(r.after.trace) == Writes(w.trace)
    ensures r.after.status == w.status
    ensures Extends(w, r.after) && r.after.jobs == w.jobs && r.after.observers == w.observers
  {
    var tokens := SplitFirst(argument);
    if tokens == [] then Raised(w)
    else
      var params := if |tokens| > 1 then Some(tokens[1]) else None;
      Returned(Record(w, Invoked(tokens[0], params)), false)
  }

  /** The command actions of `_cmd_map`, each given the rest of the line. */
  function Execute(w: Wrapper, command: Console.Command, argument: string, fs: Files): (r: Outcome)
    ensures r.Returned? ==> !r.stop
    ensures Extends(w, r.after) && r.after.jobs == w.jobs && r.after.observers == w.observers
    ensures command == Console.SendRaw ==> r == Returned(Apply(w, Send(w.status, argument)), false)
    ensures command == Console.Echo ==> r == Returned(Note(w, Echoed(argument)), false)
    ensures command == Console.StartServer ==> r == Returned(Apply(w, Start(w.status)), false)
    ensures command == Console.RestartServer ==> r == Returned(Apply(w, Restart(w.status)), false)
    ensures command == Console.StartServer || command == Console.RestartServer ==> r.after.status == Running
    ensures command == Console.Load ==> r == Load(w, argument, fs)
    ensures command == Console.RunProcedure ==> r == RunProcedure(w, argument)
  {
    match command
    case StartServer => Returned(Apply(w, Start(w.status)), false)
    case RestartServer => Returned(Apply(w, Restart(w.status)), false)
    case Echo => Returned(Note(w, Echoed(argument)), false)
    case SendRaw => Returned(Apply(w, Send(w.status, argument)), false)
    case Load => Load(w, argument, fs)
    case RunProcedure => RunProcedure(w, argument)
  }

  /**
    `_handle_input_event`: a blank line does nothing, a command runs with its
    argument, and any other line goes to the child, right-stripped, as one
    newline-terminated command.
  */
  function HandleInput(w: Wrapper, text: string, fs: Files): (r: Outcome)
    ensures r.Returned? ==> !r.stop
    ensures Extends(w, r.after) && r.after.jobs == w.jobs && r.after.observers == w.observers
    ensures AllSpace(text) ==> r == Returned(w, false)
  {
    match Console.Route(text)
    case Blank => Returned(w, false)
    case Invoke(command, argument) => Execute(w, command, argument, fs)
    case Forward(line) => Returned(Apply(w, Send(w.status, line)), false)
  }

  /**
    A non-blank line whose first word is no command is sent to the child whole,
    right-stripped, as one newline-terminated command; with no child running
    nothing is written.
  */
  lemma ForwardRaw(w: Wrapper, text: string, fs: Files)
    requires SplitFirst(RStrip(text)) != [] && SplitFirst(RStrip(text))[0] !in Console.CommandTable
    ensures HandleInput(w, text, fs) == Returned(Apply(w, Send(w.status, RStrip(text))), false)
    ensures Writes(HandleInput(w, text, fs).after.trace) ==
      Writes(w.trace) + (if w.status == Running then [RStrip(text) + "\n"] else [])
  {
    assert Console.Route(text) == Console.Forward(RStrip(text));
  }

  /** A single word that names no command, typed alone, is sent to the child as it is. */
  lemma ForwardWord(w: Wrapper, word: string, fs: Files)
    requires word != [] && NoSpace(word) && word !in Console.CommandTable
    ensures HandleInput(w, word, fs) == Returned(Apply(w, Send(w.status, word)), false)
  {
    RStripUnique(word, word);
    assert [] + word + [] == word;
    SplitFirstOne([], word, []);
    ForwardRaw(w, word, fs);
  }

  /** A line routed to a command runs that command's action with the argument. */
  lemma HandleInvoke(w: Wrapper, text: string, command: Console.Command, argument: string, fs: Files)
    requires Console.Route(text) == Console.Invoke(command, argument)
    ensures HandleInput(w, text, fs) == Execute(w, command, argument, fs)
  {
  }

  /** A line `send x` or `> x` hands `x` to the child as one newline-terminated command. */
  lemma SendsArgument(w: Wrapper, name: string, gap: string, argument: string, fs: Files)
    requires name == "send" || name == ">"
    requires AllSpace(gap) && gap != []
    requires argument != [] && !IsSpace(argument[0]) && !IsSpace(argument[|argument| - 1])
    ensures HandleInput(w, name + gap + argument, fs) == Returned(Apply(w, Send(w.status, argument)), false)
  {
    Console.RouteNamed(name, gap, argument);
    assert Console.CommandTable[name] == Console.SendRaw;
    HandleInvoke(w, name + gap + argument, Console.SendRaw, argument, fs);
  }

  /** `send x` and `> x` do the same thing. */
  lemma SendAlias(w: Wrapper, gap: string, argument: string, fs: Files)
    requires AllSpace(gap) && gap != []
    requires argument != [] && !IsSpace(argument[0]) && !IsSpace(argument[|argument| - 1])
    ensures HandleInput(w, "send" + gap + argument, fs) == HandleInput(w, ">" + gap + argument, fs)
  {
    SendsArgument(w, "send", gap, argument, fs);
    SendsArgument(w, ">", gap, argument, fs);
  }

  /** A stop and a join for each component, in order. */
  function StopAndJoin(components: seq<Component>): (r: seq<Effect>)
    ensures |r| == 2 * |components|
    ensures forall i :: 0 <= i < |components| ==>
      r[2 * i] == Signalled(components[i]) && r[2 * i + 1] == Joined(components[i])
    ensures Inert(r)
    decreases |components|
  {
    if components == [] then []
    else
      var rest := StopAndJoin(components[1..]);
      var r := [Signalled(components[0]), Joined(components[0])] + rest;
      forall i | 1 <= i < |components|
        ensures r[2 * i] == Signalled(components[i]) && r[2 * i + 1] == Joined(components[i])
      {
        assert r[2 * i] == rest[2 * (i - 1)];
        assert r[2 * i + 1] == rest[2 * (i - 1) + 1];
      }
      r
  }

  /** The threads of the first `n` jobs, in list order. */
  function JobThreads(n: nat): (r: seq<Component>)
    ensures |r| == n
    ensures forall i :: 0 <= i < n ==> r[i] == JobThread(i)
  {
    seq(n, i requires 0 <= i < n => JobThread(i))
  }

  /** The threads of the first `n` observers, in list order. */
  function ObserverThreads(n: nat): (r: seq<Component>)
    ensures |r| == n
    ensures forall i :: 0 <= i < n ==> r[i] == ObserverThread(i)
  {
    seq(n, i requires 0 <= i < n => ObserverThread(i))
  }

  /**
    The effects of `_handle_exit_event`, in order: join the console reader;
    stop the child if one runs; stop then join every job, in list order; stop
    then join every observer, in list order.
  */
  function Teardown(w: Wrapper): (t: Transition)
    ensures Legal(w.status, t) && t.status == Stopped
  {
    var server := if w.status == Running then Stop(w.status) else Transition(w.status, []);
    var threads := StopAndJoin(JobThreads(|w.jobs|)) + StopAndJoin(ObserverThreads(|w.observers|));
    InertAppend(StopAndJoin(JobThreads(|w.jobs|)), StopAndJoin(ObserverThreads(|w.observers|)));
    ReplayOne(w.status, Joined(InputReader));
    ReplayInert(Stopped, threads);
    assert server.status == Stopped;
    ThenLegal(w.status, Transition(w.status, [Joined(InputReader)]), server);
    ThenLegal(w.status, Then(Transition(w.status, [Joined(InputReader)]), server), Transition(Stopped, threads));
    Transition(Stopped, [Joined(InputReader)] + server.emitted + threads)
  }

  lemma InertAppend(a: seq<Effect>, b: seq<Effect>)
    requires Inert(a) && Inert(b)
    ensures Inert(a + b)
  {
    assert forall i :: |a| <= i < |a + b| ==> (a + b)[i] == b[i - |a|];
  }

  /** Where the stops and joins of `components` land when surrounded by other effects. */
  lemma StopAndJoinAt(before: seq<Effect>, components: seq<Component>, after: seq<Effect>)
    ensures forall i :: 0 <= i < |components| ==>
      (before + StopAndJoin(components) + after)[|before| + 2 * i] == Signalled(components[i])
      && (before + StopAndJoin(components) + after)[|before| + 2 * i + 1] == Joined(components[i])
  {
    var middle := StopAndJoin(components);
    var out := before + middle + after;
    forall i | 0 <= i < |components|
      ensures out[|before| + 2 * i] == Signalled(components[i]) && out[|before| + 2 * i + 1] == Joined(components[i])
    {
      assert out[|before| + 2 * i] == middle[2 * i];
      assert out[|before| + 2 * i + 1] == middle[2 * i + 1];
    }
  }

  /** The effects before the jobs' teardown: the console reader's join, then the child's stop if one runs. */
  function TeardownHead(w: Wrapper): (head: seq<Effect>)
    ensures |head| == if w.status == Running then 3 else 1
    ensures head[0] == Joined(InputReader)
    ensures w.status == Running ==> head[1] == Wrote("stop\n") && head[2] == Reaped
    ensures Teardown(w).emitted ==
      head + StopAndJoin(JobThreads(|w.jobs|)) + StopAndJoin(ObserverThreads(|w.observers|))
  {
    var server := if w.status == Running then Stop(w.status) else Transition(w.status, []);
    [Joined(InputReader)] + server.emitted
  }

  /**
    The order the exit handler follows, position by position: the console
    reader is joined first (`TeardownHead`, with the child's stop); then each
    job is stopped and joined, in list order, and after all jobs each observer
    likewise.
  */
  lemma TeardownOrder(w: Wrapper)
    ensures var out := Teardown(w).emitted;
      var h := |TeardownHead(w)|;
      && |out| == h + 2 * |w.jobs| + 2 * |w.observers|
      && (forall i :: 0 <= i < |w.jobs| ==>
            out[h + 2 * i] == Signalled(JobThread(i)) && out[h + 2 * i + 1] == Joined(JobThread(i)))
      && (forall i :: 0 <= i < |w.observers| ==>
            out[h + 2 * |w.jobs| + 2 * i] == Signalled(ObserverThread(i))
            && out[h + 2 * |w.jobs| + 2 * i + 1] == Joined(ObserverThread(i)))
  {
    var head := TeardownHead(w);
    var jobs := JobThreads(|w.jobs|);
    var observers := ObserverThreads(|w.observers|);
    StopAndJoinAt(head, jobs, StopAndJoin(observers));
    StopAndJoinAt(head + StopAndJoin(jobs), observers, []);
    assert head + StopAndJoin(jobs) + StopAndJoin(observers) + [] == Teardown(w).emitted;
  }

  /** The only text the exit handler sends the child is `stop`, and only to a running one. */
  lemma TeardownWrites(w: Wrapper)
    ensures Writes(Teardown(w).emitted) == if w.status == Running then ["stop\n"] else []
  {
    var server := if w.status == Running then Stop(w.status) else Transition(w.status, []);
    var threads := StopAndJoin(JobThreads(|w.jobs|)) + StopAndJoin(ObserverThreads(|w.observers|));
    InertAppend(StopAndJoin(JobThreads(|w.jobs|)), StopAndJoin(ObserverThreads(|w.observers|)));
    ReplayInert(Stopped, threads);
    ReplayInert(Stopped, [Joined(InputReader)]);
    WritesAppend([Joined(InputReader)], server.emitted);
    WritesAppend([Joined(InputReader)] + server.emitted, threads);
  }

  /**
    `_handle_exit_event` on the wrapper state: the teardown's effects, every job
    and every observer stopped, no child left running.
  */
  function Shutdown(w: Wrapper): (r: Wrapper)
    ensures r.status == Stopped
    ensures r.trace == w.trace + Teardown(w).emitted
    ensures Extends(w, r)
    ensures |r.jobs| == |w.jobs| && forall i :: 0 <= i < |w.jobs| ==> r.jobs[i] == Jobs.Stop(w.jobs[i])
    ensures |r.observers| == |w.observers|
    ensures forall i :: 0 <= i < |w.observers| ==> r.observers[i] == w.observers[i].(stopped := true)
  {
    var stoppedJobs := seq(|w.jobs|, i requires 0 <= i < |w.jobs| => Jobs.Stop(w.jobs[i]));
    var stoppedObservers := seq(|w.observers|, i requires 0 <= i < |w.observers| => w.observers[i].(stopped := true));
    Apply(w, Teardown(w)).(jobs := stoppedJobs, observers := stoppedObservers)
  }

  /** The child ending by itself between two turns of the loop: from then on the wrapper sees no child. */
  function ChildGone(w: Wrapper): (r: Wrapper)
    ensures Extends(w, r)
    ensures r.status == Stopped && r.jobs == w.jobs && r.observers == w.observers
    ensures Writes(r.trace) == Writes(w.trace)
    ensures w.status == Running ==> r.trace == w.trace + [Exited]
  {
    Apply(w, ChildExit(w.status))
  }

  /**
    `stop` is no console command, so typing it forwards it to the child. Once
    the child has ended by itself, the exit handler finds no child and writes
    nothing more: the child receives `stop` once.
  */
  lemma StopTypedThenExit(w: Wrapper, fs: Files)
    requires w.status == Running
    ensures var typed := HandleInput(w, "stop", fs).after;
      && Writes(typed.trace) == Writes(w.trace) + ["stop\n"]
      && Writes(Shutdown(ChildGone(typed)).trace) == Writes(w.trace) + ["stop\n"]
  {
    StopForwarded(w, fs);
    ShutdownWrites(ChildGone(HandleInput(w, "stop", fs).after));
  }

  lemma StopForwarded(w: Wrapper, fs: Files)
    requires w.status == Running
    ensures Writes(HandleInput(w, "stop", fs).after.trace) == Writes(w.trace) + ["stop\n"]
  {
    Console.StopIsNoCommand();
    ForwardWord(w, "stop", fs);
    SendStop(w.status);
  }

  /** The exit handler writes `stop` to a running child and nothing to a stopped one. */
  lemma ShutdownWrites(w: Wrapper)
    ensures Writes(Shutdown(w).trace) == Writes(w.trace) + (if w.status == Running then ["stop\n"] else [])
  {
    TeardownWrites(w);
    WritesAppend(w.trace, Teardown(w).emitted);
  }

  /** After shutdown no job fires again, however long its thread were to keep looping. */
  lemma ShutdownSilencesJobs(w: Wrapper, i: nat, k: nat)
    requires i < |w.jobs| && Jobs.Valid(w.jobs[i])
    ensures Jobs.Step(Shutdown(w).jobs[i]).Finished?
    ensures Jobs.Iterate(Shutdown(w).jobs[i], k).1 == []
  {
    Jobs.StoppedIsSilent(w.jobs[i], k);
  }

  /** The dispatch table: which handler an event reaches, if any. */
  function Handle(w: Wrapper, e: Event, fs: Files): (r: Option<Outcome>)
    ensures r.None? <==> e.Unregistered?
    ensures (r.Some? && r.value.Returned? && r.value.stop) <==> e == Exit
    ensures r.Some? ==> Extends(w, r.value.after)
    ensures r.Some? && e != Exit ==> r.value.after.jobs == w.jobs && r.value.after.observers == w.observers
    ensures e == Exit ==> r == Some(Returned(Shutdown(w), true))
    ensures e.Input? ==> r == Some(HandleInput(w, e.text, fs))
    ensures e.JobFired? ==> r == Some(Returned(Apply(w, Pipe(w.status, e.text)), false))
    ensures e.FileChanged? ==> r == Some(LoadFile(w, e.path, fs))
  {
    match e
    case Exit => Some(Returned(Shutdown(w), true))
    case Input(text) => Some(HandleInput(w, text, fs))
    case JobFired(_, text) => Some(Returned(Apply(w, Pipe(w.status, text)), false))
    case FileChanged(path) => Some(LoadFile(w, path, fs))
    case Unregistered(_) => None
  }

  /**
    One turn of `_loop_event_queue`: an event with no handler draws a warning
    and is dropped; a handler that raises is reported and the loop goes on; a
    handler that returns true ends the loop, which announces that the wrapper
    has stopped. The flag says whether the loop ends.
  */
  function Deliver(w: Wrapper, e: Event, fs: Files): (r: (Wrapper, bool))
    ensures r.1 <==> e == Exit
    ensures Extends(w, r.0)
    ensures e.Unregistered? ==> r.0 == Note(w, UnknownEvent(e.kind))
    ensures var h := Handle(w, e, fs); h.Some? && h.value.Raised? ==> r.0 == Note(h.value.after, HandlerFailed)
    ensures var h := Handle(w, e, fs); h.Some? && h.value.Returned? && !h.value.stop ==> r.0 == h.value.after
  {
    match Handle(w, e, fs)
    case None => (Note(w, UnknownEvent(e.kind)), false)
    case Some(Raised(w')) => (Note(w', HandlerFailed), false)
    case Some(Returned(w', stop)) => (if stop then Note(w', WrapperStopped) else w', stop)
  }

  /** The wrapper after the loop, how many events it took off the queue, and whether it ended. */
  datatype Dispatched = Dispatched(after: Wrapper, taken: nat, exited: bool)

  /**
    The shape of `_loop_event_queue`, for any way of taking one turn: take the
    events in queue order, and end right after a turn that says so.
  */
  function Drain(w: Wrapper, queue: seq<Event>, turn: (Wrapper, Event) -> (Wrapper, bool)): (r: Dispatched)
    ensures r.taken <= |queue|
    ensures !r.exited ==> r.taken == |queue|
    decreases |queue|
  {
    if queue == [] then Dispatched(w, 0, false)
    else
      var (w', stop) := turn(w, queue[0]);
      if stop then Dispatched(w', 1, true)
      else
        var d := Drain(w', queue[1..], turn);
        Dispatched(d.after, d.taken + 1, d.exited)
  }

  /** The wrapper's own turn, as a value the loop can be given. */
  function Turns(fs: Files): (turn: (Wrapper, Event) -> (Wrapper, bool))
    ensures forall w, e :: turn(w, e) == Deliver(w, e, fs)
  {
    (w, e) => Deliver(w, e, fs)
  }

  /** `_loop_event_queue` over the events queued so far, in order. */
  function Dispatch(w: Wrapper, queue: seq<Event>, fs: Files): (r: Dispatched)
    ensures r.taken <= |queue|
    ensures !r.exited ==> r.taken == |queue|
    ensures Extends(w, r.after)
  {
    var turn := Turns(fs);
    DrainExtends(w, queue, turn);
    Drain(w, queue, turn)
  }

  /** A loop whose every turn only appends consistent effects does so as a whole. */
  lemma {:induction false} DrainExtends(w: Wrapper, queue: seq<Event>, turn: (Wrapper, Event) -> (Wrapper, bool))
    requires forall v, e :: Extends(v, turn(v, e).0)
    ensures Extends(w, Drain(w, queue, turn).after)
    decreases |queue|
  {
    if queue != [] && !turn(w, queue[0]).1 {
      DrainExtends(turn(w, queue[0]).0, queue[1..], turn);
    }
  }

  /** A loop whose turns end it exactly on `Exit` ends exactly when the queue holds one. */
  lemma {:induction false} DrainExits(w: Wrapper, queue: seq<Event>, turn: (Wrapper, Event) -> (Wrapper, bool))
    requires forall v, e :: turn(v, e).1 <==> e == Exit
    ensures Drain(w, queue, turn).exited <==> Exit in queue
    decreases |queue|
  {
    if queue != [] {
      assert Exit in queue <==> queue[0] == Exit || Exit in queue[1..];
      if queue[0] != Exit {
        DrainExits(turn(w, queue[0]).0, queue[1..], turn);
      }
    }
  }

  /** Such a loop, when it ends, ends right after the first `Exit`, and handles nothing queued behind it. */
  lemma {:induction false} DrainFirstExit(w: Wrapper, queue: seq<Event>, turn: (Wrapper, Event) -> (Wrapper, bool))
    requires forall v, e :: turn(v, e).1 <==> e == Exit
    ensures var r := Drain(w, queue, turn);
      r.exited ==> 0 < r.taken && queue[r.taken - 1] == Exit && forall i :: 0 <= i < r.taken - 1 ==> queue[i] != Exit
    decreases |queue|
  {
    if queue != [] && queue[0] != Exit {
      DrainFirstExit(turn(w, queue[0]).0, queue[1..], turn);
      forall i | 1 <= i < |queue|
        ensures queue[i] == queue[1..][i - 1]
      {
      }
    }
  }

  /**
    A loop whose turns pipe a job event's text to a running child, and go on,
    drains a queue of job events completely, sending their texts in queue order.
  */
  lemma {:induction false} DrainJobEvents(w: Wrapper, queue: seq<Event>, turn: (Wrapper, Event) -> (Wrapper, bool))
    requires w.status == Running
    requires forall i :: 0 <= i < |queue| ==> queue[i].JobFired?
    requires forall v: Wrapper, e: Event :: v.status == Running && e.JobFired? ==>
      !turn(v, e).1 && turn(v, e).0.status == Running && Writes(turn(v, e).0.trace) == Writes(v.trace) + [e.text]
    ensures var r := Drain(w, queue, turn);
      && !r.exited && r.after.status == Running
      && Writes(r.after.trace) == Writes(w.trace) + Carried(queue)
    decreases |queue|
  {
    if queue != [] {
      var text := queue[0].text;
      var w' := turn(w, queue[0]).0;
      assert forall i :: 0 <= i < |queue[1..]| ==> queue[1..][i].JobFired?;
      DrainJobEvents(w', queue[1..], turn);
      var rest := Carried(queue[1..]);
      assert Carried(queue) == [text] + rest;
      AppendAssoc(Writes(w.trace), [text], rest);
    }
  }

  /** One queued event is one turn, and the loop ends exactly when that turn says so. */
  lemma DrainOne(w: Wrapper, e: Event, turn: (Wrapper, Event) -> (Wrapper, bool))
    ensures Drain(w, [e], turn) == Dispatched(turn(w, e).0, 1, turn(w, e).1)
  {
    assert [e][0] == e && [e][1..] == [];
  }

  /** A turn that ends the loop leaves everything queued behind it unhandled. */
  lemma DrainStops(w: Wrapper, queue: seq<Event>, turn: (Wrapper, Event) -> (Wrapper, bool))
    requires queue != [] && turn(w, queue[0]).1
    ensures Drain(w, queue, turn) == Dispatched(turn(w, queue[0]).0, 1, true)
  {
  }

  /**
    The loop handles events strictly in queue order: taking `a + b`, where `a`
    holds no `Exit`, is taking all of `a` and then, from where that left the
    wrapper, taking `b`.
  */
  lemma {:induction false} DrainAppend(w: Wrapper, a: seq<Event>, b: seq<Event>, turn: (Wrapper, Event) -> (Wrapper, bool))
    requires forall v, e :: turn(v, e).1 <==> e == Exit
    requires Exit !in a
    ensures var d1 := Drain(w, a, turn);
      var d2 := Drain(d1.after, b, turn);
      Drain(w, a + b, turn) == Dispatched(d2.after, |a| + d2.taken, d2.exited)
    decreases |a|
  {
    if a == [] {
      assert a + b == b;
    } else {
      assert (a + b)[0] == a[0];
      assert (a + b)[1..] == a[1..] + b;
      assert Exit !in a[1..] by {
        forall i | 0 <= i < |a[1..]| ensures a[1..][i] != Exit {
          assert a[1..][i] == a[i + 1];
        }
      }
      DrainAppend(turn(w, a[0]).0, a[1..], b, turn);
    }
  }

  lemma AppendAssoc(a: seq<string>, b: seq<string>, c: seq<string>)
    ensures a + b + c == a + (b + c)
  {
  }

  /** The wrapper's loop ends exactly when the queue holds an `Exit`. */
  lemma DispatchExits(w: Wrapper, queue: seq<Event>, fs: Files)
    ensures Dispatch(w, queue, fs).exited <==> Exit in queue
  {
    TurnsEndOnExit(fs);
    DrainExits(w, queue, Turns(fs));
  }

  /** The wrapper's loop, when it ends, ends right after the first `Exit`: nothing queued behind it is handled. */
  lemma DispatchFirstExit(w: Wrapper, queue: seq<Event>, fs: Files)
    ensures var r := Dispatch(w, queue, fs);
      r.exited ==> 0 < r.taken && queue[r.taken - 1] == Exit && forall i :: 0 <= i < r.taken - 1 ==> queue[i] != Exit
  {
    TurnsEndOnExit(fs);
    DrainFirstExit(w, queue, Turns(fs));
  }

  /** The wrapper's loop takes the events before any `Exit` first, then the rest from where they left it. */
  lemma DispatchAppend(w: Wrapper, a: seq<Event>, b: seq<Event>, fs: Files)
    requires Exit !in a
    ensures var d1 := Dispatch(w, a, fs);
      var d2 := Dispatch(d1.after, b, fs);
      Dispatch(w, a + b, fs) == Dispatched(d2.after, |a| + d2.taken, d2.exited)
  {
    TurnsEndOnExit(fs);
    DrainAppend(w, a, b, Turns(fs));
  }

  lemma TurnsEndOnExit(fs: Files)
    ensures forall w, e :: Turns(fs)(w, e).1 <==> e == Exit
  {
  }

  /** A queue with no `Exit` before its last event is taken whole; the loop ends exactly when that last event is `Exit`. */
  lemma DrainWhole(w: Wrapper, queue: seq<Event>, turn: (Wrapper, Event) -> (Wrapper, bool))
    requires forall v, e :: turn(v, e).1 <==> e == Exit
    requires forall i :: 0 <= i < |queue| - 1 ==> queue[i] != Exit
    ensures Drain(w, queue, turn).taken == |queue|
    ensures Drain(w, queue, turn).exited <==> queue != [] && queue[|queue| - 1] == Exit
  {
    DrainExits(w, queue, turn);
    DrainFirstExit(w, queue, turn);
  }

  /**
    What the console queues, the loop consumes: every line typed before the
    exit token is handled, and the loop ends on that token's `Exit` exactly
    when the session ended with one.
  */
  lemma ConsoleThenDispatch(w: Wrapper, lines: seq<string>, fs: Files)
    ensures var session := Console.Read(lines);
      var d := Dispatch(w, session.events, fs);
      d.exited == session.exited && d.taken == |session.events|
  {
    var session := Console.Read(lines);
    Console.SessionShape(lines);
    TurnsEndOnExit(fs);
    DrainWhole(w, session.events, Turns(fs));
  }

  /** The texts a queue of job events carries, in queue order. */
  function Carried(queue: seq<Event>): (texts: seq<string>)
    requires forall i :: 0 <= i < |queue| ==> queue[i].JobFired?
    ensures |texts| == |queue|
    ensures forall i :: 0 <= i < |queue| ==> texts[i] == queue[i].text
    decreases |queue|
  {
    if queue == [] then []
    else
      var rest := Carried(queue[1..]);
      assert forall i :: 1 <= i < |queue| ==> queue[i] == queue[1..][i - 1];
      [queue[0].text] + rest
  }

  /**
    The turn that takes `Exit`: the exit handler's teardown, in its order, and
    then the announcement that the wrapper has stopped.
  */
  lemma DeliverExit(w: Wrapper, fs: Files)
    ensures Deliver(w, Exit, fs).0.trace == w.trace + Teardown(w).emitted + [Told(WrapperStopped)]
    ensures Deliver(w, Exit, fs).0.status == Stopped
  {
    assert Handle(w, Exit, fs) == Some(Returned(Shutdown(w), true));
  }

  /** A job event pipes its text to the child and never ends the loop. */
  lemma DeliverJob(w: Wrapper, e: Event, fs: Files)
    requires e.JobFired?
    ensures Deliver(w, e, fs) == (Apply(w, Pipe(w.status, e.text)), false)
  {
  }

  /**
    With the child running, a queue of job events is drained completely and
    each event's text reaches the child verbatim, in queue order.
  */
  lemma DispatchJobEvents(w: Wrapper, queue: seq<Event>, fs: Files)
    requires w.status == Running
    requires forall i :: 0 <= i < |queue| ==> queue[i].JobFired?
    ensures var r := Dispatch(w, queue, fs);
      && !r.exited && r.after.status == Running
      && Writes(r.after.trace) == Writes(w.trace) + Carried(queue)
  {
    forall v: Wrapper, e: Event | v.status == Running && e.JobFired?
      ensures !Deliver(v, e, fs).1 && Deliver(v, e, fs).0.status == Running
      ensures Writes(Deliver(v, e, fs).0.trace) == Writes(v.trace) + [e.text]
    {
      DeliverJob(v, e, fs);
    }
    DrainJobEvents(w, queue, Turns(fs));
  }

  /**
    A running job feeding a running child: after `k` ticks the child has
    received the job's group texts `index, index + 1, ...`, wrapping around,
    in that order, once each tick.
  */
  lemma JobFeedsChild(w: Wrapper, j: Jobs.Job, k: nat, fs: Files)
    requires w.status == Running && Jobs.Valid(j) && !j.stopped
    ensures Writes(Dispatch(w, Jobs.Iterate(j, k).1, fs).after.trace) ==
      Writes(w.trace) + seq(k, m requires 0 <= m < k => j.texts[(j.index + m) % |j.texts|])
  {
    var events := Jobs.Iterate(j, k).1;
    CarriedCycle(j, k);
    DispatchJobEvents(w, events, fs);
  }

  /** The texts a running job's events carry over `k` ticks. */
  lemma CarriedCycle(j: Jobs.Job, k: nat)
    requires Jobs.Valid(j) && !j.stopped
    ensures forall i :: 0 <= i < |Jobs.Iterate(j, k).1| ==> Jobs.Iterate(j, k).1[i].JobFired?
    ensures Carried(Jobs.Iterate(j, k).1) == seq(k, m requires 0 <= m < k => j.texts[(j.index + m) % |j.texts|])
  {
    Jobs.Cyclic(j, k);
  }

  /**
    A job entry of the configuration; `None` marks an absent key. Only whether
    a delay is given matters here, since the wait between ticks is not modelled.
  */
  datatype RawJob = RawJob(
    jobType: Option<string>,
    title: Option<string>,
    delay: Option<real>,
    index: Option<int>,
    groups: Option<seq<seq<string>>>)

  /** Why no job is built: a required key is absent, the job type is unknown, or there are no groups. */
  datatype ConfigError = MissingKey(key: string) | InvalidJobType(jobType: string) | EmptyJob

  /**
    `_make_job`: reads the keys in the order `_make_job` does, rejects every job
    type but `command_sequence`, and builds the job with start index 0 when none
    is given.
  */
  function MakeJob(raw: RawJob): (r: Result<Jobs.Job, ConfigError>)
    ensures raw.jobType.None? ==> r == Failure(MissingKey("job_type"))
    ensures raw.jobType.Some? && raw.jobType.value != "command_sequence" ==> r == Failure(InvalidJobType(raw.jobType.value))
    ensures r.Success? <==>
      raw.jobType == Some("command_sequence") && raw.title.Some? && raw.delay.Some? && raw.groups.Some? && raw.groups.value != []
    ensures r.Success? ==> Jobs.Valid(r.value) && !r.value.stopped && r.value.title == raw.title.value
    ensures r.Success? ==> |r.value.texts| == |raw.groups.value|
    ensures r.Success? ==> forall i :: 0 <= i < |raw.groups.value| ==> r.value.texts[i] == Jobs.GroupText(raw.groups.value[i])
    ensures r.Success? && raw.index.None? ==> r.value.index == 0
    ensures r.Success? && raw.index.Some? ==> (raw.index.value - r.value.index) % |raw.groups.value| == 0
  {
    match raw.jobType
    case None => Failure(MissingKey("job_type"))
    case Some(jobType) =>
      if jobType != "command_sequence" then Failure(InvalidJobType(jobType))
      else if raw.title.None? then Failure(MissingKey("title"))
      else if raw.delay.None? then Failure(MissingKey("delay"))
      else if raw.groups.None? then Failure(MissingKey("groups"))
      else
        var index := if raw.index.Some? then raw.index.value else 0;
        var groups := raw.groups.value;
        if groups == [] then Failure(EmptyJob)
        else
          Jobs.CreateIndex(raw.title.value, index, groups);
          Success(Jobs.Create(raw.title.value, index, groups).value)
  }
}
